=== FILE: README.md ===
# Sorting visualizer core, in Dafny

The project models the sorting procedures of the EasyPeezy sorting visualizer: six React pages that each animate one algorithm on the dataset `[45, 20, 35, 10, 60, 80, 55, 15]`. The algorithms are bubble, insertion, selection, merge, heap and counting sort.

Each page holds four pieces of state:
- the array;
- a `sorting` flag;
- the highlighted indices;
- an algorithm-specific progress marker: `sortedIndex`, `minIndex` or `mergedIndex`.

The start button sets `sorting`, and an effect then runs the algorithm. While it runs, the algorithm publishes snapshots and highlights and awaits `sleep` between steps. Reset restores the dataset and clears the rest.

The model removes the React and timer layer:
- Every algorithm is a Dafny method over an immutable `seq`. It returns the final array and a trace with one `Step` per `await sleep(...)`. A `Step` records what the page shows at that pause: the array, the highlighted indices and the marker.
- Each page's start button together with the run it triggers is one `Launch` method on a `Session`. A `Session` holds the values, the `sorting` flag, the highlight and the marker.
- `Common.Reset` models the reset button.
- Merge sort and counting sort are stated over any element type with an integer key, so that their stability can be stated. The page itself is the instance `T = int`, `key = Identity`.

Modules, one per file:
- `Common`: the dataset, sortedness and permutation facts, the session and trace types, and reset.
- `Keyed`: key-ordered sequences. `Filter(s, v, key)` is the subsequence of key `v`, and stability means "`Filter` agrees for every key". `Smaller(s, v, key)` counts the keys below `v`.
- `Bubble`, `Insertion`, `Selection`, `Heap`, `Merge`, `Counting`: one module per page.

Each operation has a partner that it is proved against:
- Bubble, insertion, selection and heap sort are proved to give a sorted permutation of the input.
- Merge is proved against a reference merge, `Merge.Merged`, which is sorted, a permutation and stable.
- Counting sort is proved against a reference result, `Counting.Blocks`: the elements of each key in input order, keys ascending. Its tally and running totals are proved against `Filter` and `Smaller`.
- On the dataset, every page's run is proved to end with `[10, 15, 20, 35, 45, 55, 60, 80]`.

## Model

| member | source | states |
|---|---|---|
| Common.Reset | src/Components/BubbleSortVisualizer.jsx:39-43 | reset is accepted in every state and returns the page to its initial state: the dataset, not sorting, no highlight, no marker (every page's `handleReset` does the same) |
| Common.Initial | src/Components/MergeSortVisualizer.jsx:6-9 | a page starts on an unsorted arrangement of exactly the values `[10, 15, 20, 35, 45, 55, 60, 80]`, not sorting, with no highlight and no marker (`mergedIndex` empty; the other pages' markers start null) |
| Common.Swap | src/Components/BubbleSortVisualizer.jsx:25 | the destructuring exchange keeps the length and the multiset of the array |
| Common.FixtureOutcome | src/Components/BubbleSortVisualizer.jsx:6 | any sorted permutation of the dataset is `[10, 15, 20, 35, 45, 55, 60, 80]` |
| Bubble.SwapExtends | src/Components/BubbleSortVisualizer.jsx:24-27 | exchanging an inverted pair `(j, j+1)` extends the swap trace by one pause and carries the running maximum of `[0, j]` to `j + 1` |
| Bubble.PassGrowsSuffix | src/Components/BubbleSortVisualizer.jsx:20-29 | after a pass that brings the prefix maximum to `m - 1`, the sorted suffix, still above the prefix, grows by one |
| Bubble.BubblePass | src/Components/BubbleSortVisualizer.jsx:21-29 | one pass over `[0, m)` permutes the prefix, leaves its maximum at `m - 1` and touches nothing at or beyond `m`; every pause exchanges a strictly inverted pair `(j, j+1)` with `j + 1 < m`; a sorted prefix makes no pause |
| Bubble.BubbleSort | src/Components/BubbleSortVisualizer.jsx:17-33 | the result is a sorted permutation and the last array shown; every pause exchanges a strictly inverted adjacent pair below `n`, so equal elements never swap; sorted input makes no pause |
| Bubble.Launch | src/Components/BubbleSortVisualizer.jsx:31-37 | start is ignored while sorting; otherwise the page ends idle with a sorted permutation and no highlight, and the dataset ends ascending |
| Insertion.CountGreaterSplit | src/Components/InsertionSortVisualizer.jsx:26 | when the elements greater than the key are exactly those from `p` on, there are `\|s\| - p` of them |
| Insertion.PlacementOnSortedPrefix | src/Components/InsertionSortVisualizer.jsx:26-34 | on a sorted prefix, the shifts number exactly the prefix elements greater than the key, and the prefix grows sorted by one |
| Insertion.ShiftGreater | src/Components/InsertionSortVisualizer.jsx:21-31 | the shifting loop stops right after the last element at most the key; the elements from `pos` to `i - 1` are all greater and move up by one, the rest stay, with one pause per move inside `[0, i]` |
| Insertion.InsertKey | src/Components/InsertionSortVisualizer.jsx:21-37 | iteration `i` puts the key at `pos`, after the last element at most the key, and the elements in `[pos, i)` are all greater and move up by one; one pause per shift plus one for the placement, each highlighting an index in `[0, i]` with the marker at `i` |
| Insertion.InsertionSort | src/Components/InsertionSortVisualizer.jsx:19-43 | the result is a sorted permutation; every pause carries a marker `i` in `[1, n)` and highlights one index in `[0, i]` |
| Insertion.Launch | src/Components/InsertionSortVisualizer.jsx:40-47 | start is ignored while sorting; otherwise the page ends idle with a sorted permutation, no highlight and `sortedIndex` cleared, and every pause of the run carries a marker `i` in `[1, n)` and highlights one index in `[0, i]` |
| Selection.ScanMin | src/Components/SelectionSortVisualizer.jsx:22-32 | `minIdx` is in `[i, n)`, is a minimum of `arr[i..]` and is its first occurrence (strict `<`); one pause per `j` showing the untouched array and highlighting `(minIdx, j)`, where `minIdx` is `i` at the first pause and the previous pause's marker afterwards; the marker moves to `j` only when `arr[j] < arr[minIdx]`, so it holds the minimum so far |
| Selection.ScanExtend | src/Components/SelectionSortVisualizer.jsx:25-32 | one more comparison pause leaves the earlier pauses of the scan as they were |
| Selection.SelectStep | src/Components/SelectionSortVisualizer.jsx:21-38 | iteration `i` exchanges `arr[i]` with the first minimum of `arr[i..]` only when that minimum is not at `i`, making `n - 1 - i` comparison pauses that show the untouched array, plus, exactly in that case, one exchange pause that shows the exchanged array with the marker on the minimum's old place |
| Selection.SelectGrowsPrefix | src/Components/SelectionSortVisualizer.jsx:21-39 | the sorted prefix, below every later element, grows by one position |
| Selection.SelectionSort | src/Components/SelectionSortVisualizer.jsx:19-43 | the result is a sorted permutation, and every pause highlights a pair `i <= minIdx < j < n` |
| Selection.Launch | src/Components/SelectionSortVisualizer.jsx:40-47 | start is ignored while sorting; otherwise the page ends idle with a sorted permutation, no highlight and `minIndex` cleared, and every pause of the run highlights a pair `minIdx < j < n` beside a valid marker |
| Heap.RootIsMax | src/Components/HeapSortVisualizer.jsx:31-32 | in a max-heap over `[0, n)` the root is the maximum |
| Heap.SiftStep | src/Components/HeapSortVisualizer.jsx:58-66 | exchanging node `i` with its larger child moves the only heap violation down to that child |
| Heap.PickLargest | src/Components/HeapSortVisualizer.jsx:46-56 | `largest` stays `i` exactly when no child inside `[0, n)` is strictly greater than `arr[i]`; otherwise it is the greater child, strictly greater than `arr[i]`, the left one when the children are equal |
| Heap.Heapify | src/Components/HeapSortVisualizer.jsx:45-68 | `heapify(arr, n, i)` permutes the array and touches nothing below `i` or at or beyond `n`; if only node `i` broke the heap, `[lo, n)` is a heap afterwards. It pauses exactly when a child inside `[0, n)` is strictly greater than `arr[i]`, and otherwise changes nothing. Its first pause shows the array before the exchange and highlights `(i, largest)`, where `largest` is the greater child, strictly greater than `arr[i]`, the left one on a tie; `i` then receives `arr[largest]`. Every later pause highlights a pair inside `[i, n)` |
| Heap.BuildHeap | src/Components/HeapSortVisualizer.jsx:21-24 | the build loop gives a max-heap over the whole array and a permutation of it |
| Heap.ExtractStep | src/Components/HeapSortVisualizer.jsx:27-34 | exchanging the root with `i` grows the sorted suffix, above the rest, to start at `i`, and leaves a heap broken only at the root |
| Heap.ExtractRound | src/Components/HeapSortVisualizer.jsx:27-39 | a full extraction round keeps the invariant: sorted suffix from `i`, above the heap part, and a permutation |
| Heap.HeapSort | src/Components/HeapSortVisualizer.jsx:17-43 | the result is a sorted permutation and `sortedIndex` ends at 0; every pause highlights a pair inside the array, and each marker it shows is either the one held before the run or a boundary at or above which the array already holds its final values |
| Heap.Launch | src/Components/HeapSortVisualizer.jsx:40-42 | start is ignored while sorting; otherwise the page ends idle with a sorted permutation, no highlight and `sortedIndex` at 0, and every pause of the run highlights a pair inside the array under the old marker or a boundary at or above which the final array is already in place |
| Merge.MergedMultiset | src/Components/MergeSortVisualizer.jsx:38-68 | the reference merge is a permutation of the two halves together |
| Merge.MergedSorted | src/Components/MergeSortVisualizer.jsx:38-68 | merging two sorted halves gives a sorted sequence |
| Merge.MergedStable | src/Components/MergeSortVisualizer.jsx:38-50 | for every key, the merge lists the left half's elements of that key before the right half's, each in order (the `<=` tie-break) |
| Merge.PlaceHead | src/Components/MergeSortVisualizer.jsx:39-49 | one round writes the smaller head at `k`, the left one on ties (`<=`), advances exactly that side, and appends one pause highlighting the two heads it compared |
| Merge.HeadsStep | src/Components/MergeSortVisualizer.jsx:38-50 | a round on heads `(left + i, mid + 1 + j)` keeps the chain: its pause follows the previous one by advancing the side whose head was written, and the next heads are `(i + 1, j)` when the left head's key is at most the right one's, `(i, j + 1)` otherwise |
| Merge.MergeHeads | src/Components/MergeSortVisualizer.jsx:38-50 | while both halves remain, the written part plus the merge of the remainders is the whole merge; one pause per placement; pause 0 highlights `(left, mid + 1)` and each later pause highlights the previous pair with the side whose head won the comparison (left on ties) advanced by one, so pause `t` is on offsets summing to `t` |
| Merge.CopyLefts | src/Components/MergeSortVisualizer.jsx:52-59 | the leftover left elements complete the merge in order; the earlier pauses are kept, and each new pause highlights exactly the left position `left + i` being copied |
| Merge.CopyRights | src/Components/MergeSortVisualizer.jsx:61-68 | the leftover right elements complete the merge in order; the earlier pauses are kept, and each new pause highlights exactly the right position `mid + 1 + j` being copied |
| Merge.MergeRange | src/Components/MergeSortVisualizer.jsx:28-68 | `merge` writes exactly `[left, right]` with the reference merge of the two slices, leaves every other index alone, and makes `right - left + 1` pauses whose highlights lie in `[left, right]`; the pair pauses all come before the single-position pauses, start on `(left, mid + 1)` and each advance the side whose head the previous comparison wrote, left on ties |
| Merge.HeadsPrefix | src/Components/MergeSortVisualizer.jsx:38-68 | the chained head pauses of the first loop stay chained when the copy loops append their pauses |
| Merge.SortStep | src/Components/MergeSortVisualizer.jsx:22-24 | sorting both halves and merging them sorts `[left, right]` stably and leaves the rest alone |
| Merge.MergeSort | src/Components/MergeSortVisualizer.jsx:19-26 | `mergeSort(arr, left, right)` sorts the range stably as a permutation, touches nothing outside it, does nothing when `left >= right`, and leaves the marker at `[left, right]`, the range of the last merge |
| Merge.SortWhole | src/Components/MergeSortVisualizer.jsx:15 | `mergeSort(array, 0, n - 1)` gives a sorted permutation, with the marker at `[0, n - 1]` when `n >= 2` |
| Merge.Launch | src/Components/MergeSortVisualizer.jsx:13-17 | start is ignored while sorting; otherwise the page shows a sorted permutation and stays marked as sorting, with the marker at `[0, n - 1]` and the last pause's highlight |
| Counting.MinKey | src/Components/CountingSortVisualizer.jsx:20 | `Math.min` is a lower bound of the keys and is one of them |
| Counting.MaxKey | src/Components/CountingSortVisualizer.jsx:19 | `Math.max` is an upper bound of the keys and is one of them |
| Counting.Range | src/Components/CountingSortVisualizer.jsx:21 | `max - min + 1` is at least 1 and every key lands at an offset `key - min` inside `[0, range)` |
| Counting.Allocatable | src/Components/CountingSortVisualizer.jsx:19-22 | the allocations succeed exactly when the input is non-empty and no two of its keys lie `2^32 - 1` or more apart, so that `max - min + 1` is a length `new Array` accepts |
| Counting.FixtureRange | src/Components/CountingSortVisualizer.jsx:19-22 | the dataset spans 10 to 80, so its 71 count slots can be allocated |
| Counting.BlocksSorted | src/Components/CountingSortVisualizer.jsx:36-43 | the reference blocks are ordered by key |
| Counting.BlocksFilter | src/Components/CountingSortVisualizer.jsx:36-43 | the reference blocks hold, for each key in range, exactly the input's elements of that key in input order |
| Counting.BlocksStableSort | src/Components/CountingSortVisualizer.jsx:36-43 | when the keys lie in the range, the reference blocks are a stable sort: ordered, the same elements per key in input order, a permutation |
| Counting.Tally | src/Components/CountingSortVisualizer.jsx:26-28 | after the tally, `count[k]` is the number of elements of key `min + k` |
| Counting.PrefixSums | src/Components/CountingSortVisualizer.jsx:31-33 | after the running totals, `count[k]` is the number of elements of key at most `min + k` |
| Counting.RunningTotals | src/Components/CountingSortVisualizer.jsx:22-33 | the counts allocated, tallied and summed are those running totals, and the last one is `n` |
| Counting.PlaceCounts | src/Components/CountingSortVisualizer.jsx:40-41 | the target `count[v - min] - 1` lies inside the block of key `v`; after the decrement the counts describe the unplaced indices |
| Counting.PlaceWritten | src/Components/CountingSortVisualizer.jsx:40-41 | each placement extends the written part of its own key's block by one element, at the front, and leaves every other block alone |
| Counting.SlotsStep | src/Components/CountingSortVisualizer.jsx:40-41 | the new target differs from every target used before, so no output slot is written twice |
| Counting.PlacementDone | src/Components/CountingSortVisualizer.jsx:36-46 | when every index is placed, the output is the reference blocks |
| Counting.PausesExtend | src/Components/CountingSortVisualizer.jsx:37-45 | the placement of index `i` adds a pause highlighting `i` under the previous counter, then one showing the output with `sortedIndex = n - i` |
| Counting.Place | src/Components/CountingSortVisualizer.jsx:36-46 | the backward placement into a zero-filled output gives the reference blocks; placement `t` overwrites only its slot `slots[t]` of the array shown before it, as its second pause shows, and the `n` slots are distinct positions in `[0, n)`, so each output slot is written exactly once; two pauses per index, highlighting `i` with the counter reaching `n` |
| Counting.WritesExtend | src/Components/CountingSortVisualizer.jsx:37-45 | one more placement shows the previous array, then that array with only its own slot overwritten by the element placed |
| Counting.SortKeys | src/Components/CountingSortVisualizer.jsx:22-46 | with `min` and `max + 1` as bounds, the run's output is the reference blocks: a stable, sorted permutation of the input |
| Counting.CountingSort | src/Components/CountingSortVisualizer.jsx:17-51 | on a non-empty input whose range can be allocated, the page ends with a stable sorted permutation (negative values included), after `2n` pauses whose counter ends at `n` |
| Counting.Launch | src/Components/CountingSortVisualizer.jsx:48-55 | start is ignored while sorting; on an allocatable input the page ends idle, sorted, with no highlight and `sortedIndex = n`; on an empty array, or a range `new Array` rejects, the run throws before its first pause and the page stays marked as sorting |

## Left out

- Rendering is not modelled: the JSX, the framer-motion animation, the Tailwind classes, routing, the home page, the typing text, the layout and the footer. They are presentation only.
- `sleep`, `setTimeout` and React's asynchronous state updates are not modelled as time. Each `await sleep(...)` is one `Step` of the trace, carrying the state visible at that moment.
- A reset pressed while a run is still pending is left out. The stale run would keep writing into the restored dataset, which is event-loop concurrency, not algorithm logic. `Launch` treats the start and the run it triggers as one step.
- Quick sort is imported by the router but is not part of this model.
- The heap sort page text calls heap sort "stable". It is not, and nothing here claims it.
- JavaScript number semantics are not modelled: NaN, ±Infinity and floating point. Values are Dafny integers. For counting sort, `Counting.Allocatable` models the `RangeError` from `new Array` with the limit `2^32 - 1`.
- The memory and time a large but allocatable counting range costs are not modelled. Values 0 and 10^9, say, make `new Array` allocate, fill and scan about 10^9 count slots; the model treats that as an ordinary run.
- Merge sort and counting sort on edge inputs behave as follows, and the model does the same:
  - Merge sort never sets `sorting` back to false, so `Merge.Launch` leaves the page marked as sorting. This includes inputs of fewer than two elements, where nothing else changes.
  - The merged marker spreads the `mergedIndex` captured when the run started, which was empty. Each merge replaces the marker with its own range; the marker never accumulates, and `Merge.MergeSort` ends with the range of the last merge.
  - Counting sort on an empty array throws, because `Math.max()` is `-Infinity`. The page stays marked as sorting, and `Counting.Launch` says so.
- Bubble.BubbleSort, Insertion.InsertionSort, Selection.SelectionSort, Heap.HeapSort, Merge.MergeSort: the whole-run trace is described by the shape of each pause, not array by array. That shape is the highlight bounds, the marker, the exchanged pair for bubble sort, and the settled suffix for heap sort. `Selection.ScanMin` and `Selection.SelectStep` state the array of every pause of one iteration, and `Counting.Place` states it through the slot each placement writes.
- Merge.MergeRange: states the array of its last pause only. The earlier pauses are described by their highlight and marker, not by the partially merged array they show.
- Counting.CountingSort: the equality of its result with the reference blocks is stated by `Counting.SortKeys`. `CountingSort` itself states the consequences: sorted, stable, a permutation.
- Counting.CountPause: the array shown at each pause is stated only by its length. `Counting.Place` states every one of them through the slots it writes (`Counting.SlotsWritten`). `Counting.SortKeys` and `Counting.CountingSort` do not return the slots, so they state only the last array, which is the result.

=== FILE: bubble.dfy ===
/**
 The bubble sort page: `bubbleSort` and the start and reset buttons. Passes `i` run over
 `[0, n-1)`, comparisons `j` over `[0, n-i-1)`; the pair `(j, j+1)` is highlighted, and the
 page pauses only after an exchange, which happens only when `arr[j] > arr[j+1]`.
 */
module Bubble {
  import opened Common

  /**
   One pause of bubble sort: the pair `(j, j+1)`, with `j + 1 < m`, is highlighted and shown
   exchanged, and it was strictly out of order in the array shown before.
   */
  predicate SwapPause(before: seq<int>, st: Step<int>, m: int) {
    && |st.highlighted| == 2
    && 0 <= st.highlighted[0]
    && st.highlighted[1] == st.highlighted[0] + 1
    && st.highlighted[1] < m
    && st.highlighted[1] < |before|
    && before[st.highlighted[0]] > before[st.highlighted[1]]
    && st.shown == before[st.highlighted[0] := before[st.highlighted[1]]][st.highlighted[1] := before[st.highlighted[0]]]
    && st.marker == Unmarked
  }

  /**
   Every pause of `trace`, starting from the array `start`, exchanges one strictly inverted
   adjacent pair below `m` of the array shown just before it.
   */
  predicate SwapTrace(start: seq<int>, trace: seq<Step<int>>, m: int)
    decreases |trace|
  {
    trace == [] || (SwapPause(start, trace[0], m) && SwapTrace(trace[0].shown, trace[1..], m))
  }

  /** A swap trace continued by a swap trace of its last array is a swap trace. */
  lemma {:induction false} SwapTraceConcat(start: seq<int>, t1: seq<Step<int>>, t2: seq<Step<int>>, m1: int, m2: int)
    requires SwapTrace(start, t1, m1)
    requires SwapTrace(LastShown(start, t1), t2, m2)
    requires m2 <= m1
    ensures SwapTrace(start, t1 + t2, m1)
    decreases |t1|
  {
    if t1 == [] {
      assert t1 + t2 == t2;
      SwapTraceWeaken(start, t2, m2, m1);
    } else {
      var rest := t1[1..];
      assert (t1 + t2)[0] == t1[0];
      assert (t1 + t2)[1..] == rest + t2;
      assert LastShown(start, t1) == LastShown(t1[0].shown, rest);
      SwapTraceConcat(t1[0].shown, rest, t2, m1, m2);
    }
  }

  /** A swap trace below `m` is a swap trace below any larger bound. */
  lemma {:induction false} SwapTraceWeaken(start: seq<int>, trace: seq<Step<int>>, m: int, m': int)
    requires SwapTrace(start, trace, m) && m <= m'
    ensures SwapTrace(start, trace, m')
    decreases |trace|
  {
    if trace != [] {
      SwapTraceWeaken(trace[0].shown, trace[1..], m, m');
    }
  }

  /**
   Exchanging the inverted pair `(j, j+1)` of the array last shown extends a swap trace by
   one pause, and carries the running maximum of `[0, j]` up to `j + 1`.
   */
  lemma SwapExtends(start: seq<int>, trace: seq<Step<int>>, r: seq<int>, r': seq<int>, j: int, m: int)
    requires 0 <= j && j + 1 < m <= |r|
    requires r' == Swap(r, j, j + 1)
    requires r[j] > r[j + 1]
    requires SwapTrace(start, trace, m) && r == LastShown(start, trace)
    requires forall k :: 0 <= k <= j ==> r[k] <= r[j]
    ensures SwapTrace(start, trace + [Step(r', [j, j + 1], Unmarked)], m)
    ensures LastShown(start, trace + [Step(r', [j, j + 1], Unmarked)]) == r'
    ensures forall k :: 0 <= k <= j + 1 ==> r'[k] <= r'[j + 1]
    ensures r'[m..] == r[m..] && multiset(r') == multiset(r)
    ensures !Sorted(r[..m])
  {
    assert r[..m][j] > r[..m][j + 1];
    var st := Step(r', [j, j + 1], Unmarked);
    assert SwapPause(r, st, m);
    assert SwapTrace(r, [st], m) by {
      assert [st][1..] == [];
    }
    SwapTraceConcat(start, trace, [st], m, m);
  }

  /** Without an exchange, the running maximum of `[0, j]` moves on to `j + 1` unchanged. */
  lemma RunningMaximum(r: seq<int>, j: int)
    requires 0 <= j && j + 1 < |r|
    requires r[j] <= r[j + 1]
    requires forall k :: 0 <= k <= j ==> r[k] <= r[j]
    ensures forall k :: 0 <= k <= j + 1 ==> r[k] <= r[j + 1]
  {
  }

  /**
   After a pass over `[0, m)` that permutes the prefix and brings its maximum to `m - 1`,
   the sorted suffix, which was above the prefix, grows by one position.
   */
  lemma PassGrowsSuffix(r: seq<int>, r': seq<int>, m: int)
    requires 1 <= m <= |r| == |r'|
    requires Sorted(r[m..]) && Below(r[..m], r[m..])
    requires r'[m..] == r[m..] && multiset(r'[..m]) == multiset(r[..m])
    requires forall k :: 0 <= k < m ==> r'[k] <= r'[m - 1]
    ensures Sorted(r'[m - 1..]) && Below(r'[..m - 1], r'[m - 1..])
    ensures multiset(r') == multiset(r)
  {
    PermutationKeepsBelow(r'[..m], r[..m], r[m..]);
    forall p, q | m - 1 <= p < q < |r'|
      ensures r'[p] <= r'[q]
    {
      assert r'[q] == r[m..][q - m];
      if p == m - 1 {
        assert r'[p] == r'[..m][m - 1];
      } else {
        assert r'[p] == r[m..][p - m];
      }
    }
    forall p, q | 0 <= p < m - 1 <= q < |r'|
      ensures r'[p] <= r'[q]
    {
      if q >= m {
        assert r'[p] == r'[..m][p];
        assert r'[q] == r[m..][q - m];
      }
    }
    assert r == r[..m] + r[m..];
    assert r' == r'[..m] + r'[m..];
  }

  /**
   One pass of the outer loop over the unsorted prefix `[0, m)`: the prefix is permuted,
   its largest element ends at `m - 1`, nothing at or beyond `m` moves, and an
   already-sorted prefix is left alone without a single pause.
   */
  method BubblePass(arr: seq<int>, m: int) returns (r: seq<int>, steps: seq<Step<int>>)
    requires 1 <= m <= |arr|
    ensures |r| == |arr| && r[m..] == arr[m..]
    ensures multiset(r[..m]) == multiset(arr[..m])
    ensures forall k :: 0 <= k < m ==> r[k] <= r[m - 1]
    ensures SwapTrace(arr, steps, m) && r == LastShown(arr, steps)
    ensures Sorted(arr[..m]) ==> steps == []
  {
    r, steps := arr, [];
    var j := 0;
    while j < m - 1
      invariant 0 <= j <= m - 1
      invariant |r| == |arr| && r[m..] == arr[m..]
      invariant multiset(r) == multiset(arr)
      invariant forall k :: 0 <= k <= j ==> r[k] <= r[j]
      invariant SwapTrace(arr, steps, m) && r == LastShown(arr, steps)
      invariant Sorted(arr[..m]) ==> steps == [] && r == arr
    {
      if r[j] > r[j + 1] {
        var r' := Swap(r, j, j + 1);
        SwapExtends(arr, steps, r, r', j, m);
        r := r';
        steps := steps + [Step(r, [j, j + 1], Unmarked)];
      } else {
        RunningMaximum(r, j);
      }
      j := j + 1;
    }
    PrefixPermutation(r, arr, m);
  }

  /**
   `bubbleSort`: the result is a sorted permutation of the input, it is the last array the
   page showed, every pause exchanged one strictly inverted adjacent pair (so equal
   elements are never exchanged), and a sorted input makes no pause at all.
   */
  method BubbleSort(a: seq<int>) returns (r: seq<int>, trace: seq<Step<int>>)
    ensures Sorted(r) && multiset(r) == multiset(a)
    ensures SwapTrace(a, trace, |a|) && r == LastShown(a, trace)
    ensures Sorted(a) ==> trace == []
  {
    var n := |a|;
    r, trace := a, [];
    var i := 0;
    while i < n - 1
      invariant 0 <= i <= n && (n > 0 ==> i <= n - 1)
      invariant |r| == n && multiset(r) == multiset(a)
      invariant Sorted(r[n - i..]) && Below(r[..n - i], r[n - i..])
      invariant SwapTrace(a, trace, n) && r == LastShown(a, trace)
      invariant Sorted(a) ==> trace == [] && r == a
    {
      var m := n - i;
      var r', steps := BubblePass(r, m);
      PassGrowsSuffix(r, r', m);
      if Sorted(a) {
        assert Sorted(r[..m]);
      }
      SwapTraceConcat(a, trace, steps, n, m);
      r, trace := r', trace + steps;
      i := i + 1;
    }
    if n > 0 {
      SortedJoin(r, 1);
    }
  }

  /**
   `handleSort` followed by the run it starts: ignored while a run is in progress;
   otherwise the page ends idle, with a sorted permutation of its array and no highlight.
   */
  method Launch(s: Session) returns (s': Session, trace: seq<Step<int>>)
    ensures s.sorting ==> s' == s && trace == []
    ensures !s.sorting ==> && Sorted(s'.values) && multiset(s'.values) == multiset(s.values)
                           && !s'.sorting && s'.highlighted == [] && s'.marker == s.marker
                           && SwapTrace(s.values, trace, |s.values|)
    ensures !s.sorting && s.values == Fixture ==> s'.values == SortedFixture
  {
    if s.sorting {
      return s, [];
    }
    var r;
    r, trace := BubbleSort(s.values);
    s' := s.(values := r, sorting := false, highlighted := []);
    if s.values == Fixture {
      FixtureOutcome(r);
    }
  }
}

=== FILE: common.dfy ===
/**
 The vocabulary shared by the six sorting visualizers: the fixed dataset, sortedness
 and permutation facts about integer sequences, and the per-component session state
 (array, running flag, highlighted indices, progress marker) together with the trace
 of pauses a run reports to the page.
 */
module Common {

  /** The dataset every visualizer starts with and restores on reset. */
  const Fixture: seq<int> := [45, 20, 35, 10, 60, 80, 55, 15]

  /** The fixture in ascending order. */
  const SortedFixture: seq<int> := [10, 15, 20, 35, 45, 55, 60, 80]

  /** Non-decreasing order. */
  predicate Sorted(s: seq<int>) {
    forall i, j :: 0 <= i < j < |s| ==> s[i] <= s[j]
  }

  /** Every element of `lows` is at most every element of `highs`. */
  predicate Below(lows: seq<int>, highs: seq<int>) {
    forall p, q :: 0 <= p < |lows| && 0 <= q < |highs| ==> lows[p] <= highs[q]
  }

  /** The destructuring exchange `[arr[i], arr[j]] = [arr[j], arr[i]]`. */
  function Swap<T>(s: seq<T>, i: int, j: int): (r: seq<T>)
    requires 0 <= i < |s| && 0 <= j < |s|
    ensures |r| == |s|
    ensures multiset(r) == multiset(s)
  {
    s[i := s[j]][j := s[i]]
  }

  /** Concatenation is associative. */
  lemma ConcatAssociative<T>(a: seq<T>, b: seq<T>, c: seq<T>)
    ensures a + (b + c) == (a + b) + c
  {
  }

  /** A permutation keeps every upper bound. */
  lemma PermutationKeepsUpperBound(x: seq<int>, y: seq<int>, v: int)
    requires multiset(x) == multiset(y)
    requires forall k :: 0 <= k < |y| ==> y[k] <= v
    ensures forall k :: 0 <= k < |x| ==> x[k] <= v
  {
    forall k | 0 <= k < |x|
      ensures x[k] <= v
    {
      assert x[k] in multiset(y);
    }
  }

  /** A permutation keeps every lower bound. */
  lemma PermutationKeepsLowerBound(x: seq<int>, y: seq<int>, v: int)
    requires multiset(x) == multiset(y)
    requires forall k :: 0 <= k < |y| ==> v <= y[k]
    ensures forall k :: 0 <= k < |x| ==> v <= x[k]
  {
    forall k | 0 <= k < |x|
      ensures v <= x[k]
    {
      assert x[k] in multiset(y);
    }
  }

  /** Replacing the low part by a permutation of itself keeps it below the high part. */
  lemma PermutationKeepsBelow(x: seq<int>, y: seq<int>, highs: seq<int>)
    requires multiset(x) == multiset(y)
    requires Below(y, highs)
    ensures Below(x, highs)
  {
    forall q | 0 <= q < |highs|
      ensures forall p :: 0 <= p < |x| ==> x[p] <= highs[q]
    {
      PermutationKeepsUpperBound(x, y, highs[q]);
    }
  }

  /** Two permutations of each other that agree from `m` on permute their first `m` elements. */
  lemma PrefixPermutation<T>(x: seq<T>, y: seq<T>, m: int)
    requires 0 <= m <= |x| == |y|
    requires multiset(x) == multiset(y) && x[m..] == y[m..]
    ensures multiset(x[..m]) == multiset(y[..m])
  {
    assert x == x[..m] + x[m..];
    assert y == y[..m] + y[m..];
    assert multiset(x[..m]) == multiset(x) - multiset(x[m..]);
    assert multiset(y[..m]) == multiset(y) - multiset(y[m..]);
  }

  /** Two permutations of each other that agree below `m` permute their elements from `m` on. */
  lemma SuffixPermutation<T>(x: seq<T>, y: seq<T>, m: int)
    requires 0 <= m <= |x| == |y|
    requires multiset(x) == multiset(y) && x[..m] == y[..m]
    ensures multiset(x[m..]) == multiset(y[m..])
  {
    assert x == x[..m] + x[m..];
    assert y == y[..m] + y[m..];
    assert multiset(x[m..]) == multiset(x) - multiset(x[..m]);
    assert multiset(y[m..]) == multiset(y) - multiset(y[..m]);
  }

  /** Replacing the high part by a permutation of itself keeps it above the low part. */
  lemma PermutationKeepsAbove(lows: seq<int>, x: seq<int>, y: seq<int>)
    requires multiset(x) == multiset(y)
    requires Below(lows, y)
    ensures Below(lows, x)
  {
    forall p | 0 <= p < |lows|
      ensures forall q :: 0 <= q < |x| ==> lows[p] <= x[q]
    {
      PermutationKeepsLowerBound(x, y, lows[p]);
    }
  }

  /** A sorted low part, a sorted high part, and low below high make a sorted whole. */
  lemma SortedJoin(r: seq<int>, k: int)
    requires 0 <= k <= |r|
    requires Sorted(r[..k]) && Sorted(r[k..]) && Below(r[..k], r[k..])
    ensures Sorted(r)
  {
  }

  /** There is exactly one sorted arrangement of a multiset of integers. */
  lemma {:induction false} SortedPermutationUnique(a: seq<int>, b: seq<int>)
    requires Sorted(a) && Sorted(b) && multiset(a) == multiset(b)
    ensures a == b
    decreases |a|
  {
    assert |a| == |multiset(a)| == |multiset(b)| == |b|;
    if |a| > 0 {
      assert a[0] in multiset(b);
      assert b[0] in multiset(a);
      assert a[0] == b[0];
      assert a == [a[0]] + a[1..];
      assert b == [b[0]] + b[1..];
      assert multiset(a) == multiset{a[0]} + multiset(a[1..]);
      assert multiset(b) == multiset{b[0]} + multiset(b[1..]);
      assert multiset(a[1..]) == multiset(a) - multiset{a[0]};
      assert multiset(b[1..]) == multiset(b) - multiset{b[0]};
      SortedPermutationUnique(a[1..], b[1..]);
    }
  }

  /** The fixture as a multiset of values. */
  lemma FixtureBag()
    ensures multiset(Fixture) == multiset{10, 15, 20, 35, 45, 55, 60, 80}
  {
    assert multiset(Fixture) == multiset{45, 20, 35, 10, 60, 80, 55, 15};
  }

  /** The ascending fixture holds the same values as the fixture. */
  lemma FixtureValues()
    ensures multiset(Fixture) == multiset(SortedFixture)
  {
    FixtureBag();
    assert multiset(SortedFixture) == multiset{10, 15, 20, 35, 45, 55, 60, 80};
  }

  /** The ascending fixture is sorted. */
  lemma SortedFixtureSorted()
    ensures Sorted(SortedFixture)
  {
    forall i, j | 0 <= i < j < |SortedFixture|
      ensures SortedFixture[i] <= SortedFixture[j]
    {
      assert SortedFixture[i] <= 10 * i + 10 <= 10 * j <= SortedFixture[j];
    }
  }

  /** The fixture is not sorted: its first value exceeds its second. */
  lemma FixtureUnsorted()
    ensures !Sorted(Fixture)
  {
    assert Fixture[0] > Fixture[1];
  }

  /** Whatever sorts the fixture must produce the ascending fixture. */
  lemma FixtureOutcome(r: seq<int>)
    requires Sorted(r) && multiset(r) == multiset(Fixture)
    ensures r == SortedFixture
  {
    FixtureValues();
    SortedFixtureSorted();
    SortedPermutationUnique(r, SortedFixture);
  }

  /**
   Algorithm-specific progress marker. `At(b)` is a single index (the boundary of
   insertion, heap and counting sort, the running minimum of selection sort);
   `Span(lo, hi)` is the range of indices merge sort marks as merged; `Unmarked`
   is the null (or empty) marker.
   */
  datatype Marker = Unmarked | At(index: int) | Span(lo: int, hi: int)

  /** What the page shows at one pause of a run. */
  datatype Step<T> = Step(shown: seq<T>, highlighted: seq<int>, marker: Marker)

  /** The state of one visualizer page. */
  datatype Session = Session(values: seq<int>, sorting: bool, highlighted: seq<int>, marker: Marker)

  /**
   The state a page is created with: an unsorted arrangement of the values the sorted
   fixture holds, not sorting, with nothing highlighted and no marker.
   */
  function Initial(): (s: Session)
    ensures !Sorted(s.values) && multiset(s.values) == multiset(SortedFixture)
    ensures !s.sorting && s.highlighted == [] && s.marker == Unmarked
  {
    FixtureValues();
    FixtureUnsorted();
    Session(Fixture, false, [], Unmarked)
  }

  /** The reset button: accepted in every state, restores the fixture and clears the rest. */
  function Reset(s: Session): (r: Session)
    ensures r == Initial()
    ensures !r.sorting && r.highlighted == [] && r.marker == Unmarked
  {
    s.(values := [45, 20, 35, 10, 60, 80, 55, 15], sorting := false, highlighted := [], marker := Unmarked)
  }

  /** The array shown after a run: its last snapshot, or the starting array if there was none. */
  function LastShown<T>(start: seq<T>, trace: seq<Step<T>>): seq<T> {
    if trace == [] then start else trace[|trace| - 1].shown
  }

  /** The highlight left after a run: that of its last pause, or `start` if there was none. */
  function LastHighlight<T>(start: seq<int>, trace: seq<Step<T>>): seq<int> {
    if trace == [] then start else trace[|trace| - 1].highlighted
  }

  /** The identity key, under which the keyed sorts are the sorts of the page. */
  function Identity(x: int): int { x }
}

=== FILE: counting.dfy ===
/**
 The counting sort page: `countingSort` with its `sortedIndex` counter, and the start and
 reset buttons. The run finds the smallest and largest values, tallies every value at
 offset `value - min` of a `count` array of `max - min + 1` slots, turns the tallies into
 running totals, and then scans the input from the last index to the first, writing each
 element at `count[value - min] - 1` of a fresh output array and decrementing that count.
 Each source index makes two pauses: one highlighting it, one showing the output after
 its placement together with the number of elements placed so far. The algorithm is
 stated over any element type with an integer key, so that its stability can be
 expressed; the page is the instance `T = int`, `key = Identity`, output filled with 0.
 */
module Counting {
  import opened Common
  import opened Keyed

  /** The largest length `new Array(length)` accepts; a longer one raises a `RangeError`. */
  const MaxArrayLength: int := 0xFFFF_FFFF

  /** `Math.min` over the keys of a non-empty sequence. */
  function MinKey<T>(a: seq<T>, key: T -> int): (r: int)
    requires |a| > 0
    ensures forall k :: 0 <= k < |a| ==> r <= key(a[k])
    ensures exists k :: 0 <= k < |a| && key(a[k]) == r
  {
    if |a| == 1 then key(a[0])
    else
      var m := MinKey(a[..|a| - 1], key);
      assert a[..|a| - 1][0] == a[0];
      if key(a[|a| - 1]) < m then key(a[|a| - 1]) else m
  }

  /** `Math.max` over the keys of a non-empty sequence. */
  function MaxKey<T>(a: seq<T>, key: T -> int): (r: int)
    requires |a| > 0
    ensures forall k :: 0 <= k < |a| ==> key(a[k]) <= r
    ensures exists k :: 0 <= k < |a| && key(a[k]) == r
  {
    if |a| == 1 then key(a[0])
    else
      var m := MaxKey(a[..|a| - 1], key);
      assert a[..|a| - 1][0] == a[0];
      if key(a[|a| - 1]) > m then key(a[|a| - 1]) else m
  }

  /**
   The number of count slots, `max - min + 1`: every key lands at an offset `key - min`
   inside `[0, range)`, and the range is at least one.
   */
  function Range<T>(a: seq<T>, key: T -> int): (r: int)
    requires |a| > 0
    ensures r >= 1
    ensures forall k :: 0 <= k < |a| ==> 0 <= key(a[k]) - MinKey(a, key) < r
  {
    MaxKey(a, key) - MinKey(a, key) + 1
  }

  /**
   Whether the run gets past its allocations: a non-empty input whose range `new Array`
   accepts, that is, no two of its keys lie `MaxArrayLength` or more apart.
   */
  predicate Allocatable<T>(a: seq<T>, key: T -> int): (ok: bool)
    ensures ok <==> |a| > 0 && forall k, l :: 0 <= k < |a| && 0 <= l < |a| ==> key(a[k]) - key(a[l]) < MaxArrayLength
  {
    |a| > 0 && Range(a, key) <= MaxArrayLength
  }

  /** The fixture spans the values 10 to 80, 71 count slots. */
  lemma FixtureRange()
    ensures MinKey(Fixture, Identity) == 10 && MaxKey(Fixture, Identity) == 80
    ensures Allocatable(Fixture, Identity)
  {
    var lo, hi := MinKey(Fixture, Identity), MaxKey(Fixture, Identity);
    assert lo <= Identity(Fixture[3]) && Identity(Fixture[5]) <= hi;
  }

  /**
   The reference result: the elements of key `lo`, then those of key `lo + 1`, and so on
   up to key `hi - 1`, each group in input order.
   */
  function Blocks<T>(s: seq<T>, lo: int, hi: int, key: T -> int): (r: seq<T>)
    ensures forall k :: 0 <= k < |r| ==> lo <= key(r[k]) < hi
    decreases hi - lo
  {
    if hi <= lo then [] else Filter(s, lo, key) + Blocks(s, lo + 1, hi, key)
  }

  /** The blocks are ordered by key. */
  lemma {:induction false} BlocksSorted<T>(s: seq<T>, lo: int, hi: int, key: T -> int)
    ensures SortedBy(Blocks(s, lo, hi, key), key)
    decreases hi - lo
  {
    if lo < hi {
      var first, rest := Filter(s, lo, key), Blocks(s, lo + 1, hi, key);
      BlocksSorted(s, lo + 1, hi, key);
      var b := first + rest;
      forall i, j | 0 <= i < j < |b|
        ensures key(b[i]) <= key(b[j])
      {
        if j < |first| {
          assert b[i] == first[i] && b[j] == first[j];
        } else if i < |first| {
          assert b[i] == first[i] && b[j] == rest[j - |first|];
        } else {
          assert b[i] == rest[i - |first|] && b[j] == rest[j - |first|];
        }
      }
    }
  }

  /** Filtering the blocks by key `v` gives the input's elements of key `v` if `v` is in `[lo, hi)`, and nothing otherwise. */
  lemma {:induction false} BlocksFilter<T>(s: seq<T>, lo: int, hi: int, v: int, key: T -> int)
    ensures Filter(Blocks(s, lo, hi, key), v, key) == if lo <= v < hi then Filter(s, v, key) else []
    decreases hi - lo
  {
    if hi <= lo {
      assert Blocks(s, lo, hi, key) == [];
    } else {
      var first, rest := Filter(s, lo, key), Blocks(s, lo + 1, hi, key);
      BlocksFilter(s, lo + 1, hi, v, key);
      FilterAppend(first, rest, v, key);
      if v == lo {
        FilterAbsent(rest, v, key);
        FilterIdempotent(s, v, key);
        assert Filter(s, v, key) + [] == Filter(s, v, key);
      } else {
        FilterAbsent(first, v, key);
      }
    }
  }

  /** Filtering twice by the same key changes nothing. */
  lemma {:induction false} FilterIdempotent<T>(s: seq<T>, v: int, key: T -> int)
    ensures Filter(Filter(s, v, key), v, key) == Filter(s, v, key)
    decreases |s|
  {
    if s != [] {
      var init := s[..|s| - 1];
      FilterIdempotent(init, v, key);
      var f := Filter(init, v, key);
      if key(s[|s| - 1]) == v {
        FilterAppend(f, [s[|s| - 1]], v, key);
        assert Filter([s[|s| - 1]], v, key) == [s[|s| - 1]] by {
          assert [s[|s| - 1]][..0] == [];
        }
      } else {
        assert f + [] == f;
      }
    }
  }

  /**
   When every key lies in `[lo, hi)`, the blocks are a stable sort of the input: ordered
   by key, holding the elements of each key in input order, and so a permutation of it.
   */
  lemma BlocksStableSort<T>(s: seq<T>, lo: int, hi: int, key: T -> int)
    requires forall k :: 0 <= k < |s| ==> lo <= key(s[k]) < hi
    ensures SortedBy(Blocks(s, lo, hi, key), key)
    ensures SameOrderPerKey(Blocks(s, lo, hi, key), s, key)
    ensures multiset(Blocks(s, lo, hi, key)) == multiset(s)
  {
    BlocksSorted(s, lo, hi, key);
    var b := Blocks(s, lo, hi, key);
    forall v
      ensures Filter(b, v, key) == Filter(s, v, key)
    {
      BlocksFilter(s, lo, hi, v, key);
      if !(lo <= v < hi) {
        FilterAbsent(s, v, key);
      }
    }
    SameOrderMultiset(b, s, key);
  }

  /** Step 1, the tally: `count[k]` is the number of elements of key `min + k`. */
  method Tally<T>(a: seq<T>, lo: int, range: int, key: T -> int) returns (count: seq<int>)
    requires range >= 1
    requires forall k :: 0 <= k < |a| ==> 0 <= key(a[k]) - lo < range
    ensures |count| == range
    ensures forall k :: 0 <= k < range ==> count[k] == |Filter(a, lo + k, key)|
  {
    count := seq(range, _ => 0);
    var i := 0;
    while i < |a|
      invariant 0 <= i <= |a| && |count| == range
      invariant forall k :: 0 <= k < range ==> count[k] == |Filter(a[..i], lo + k, key)|
    {
      var slot := key(a[i]) - lo;
      var count' := count[slot := count[slot] + 1];
      forall k | 0 <= k < range
        ensures count'[k] == |Filter(a[..i + 1], lo + k, key)|
      {
        FilterPrefix(a, i, lo + k, key);
      }
      count := count';
      i := i + 1;
    }
    assert a[..i] == a;
  }

  /** Step 2, the running totals: `count[k]` becomes the number of elements of key at most `min + k`. */
  method PrefixSums<T>(a: seq<T>, lo: int, tally: seq<int>, key: T -> int) returns (count: seq<int>)
    requires |tally| >= 1
    requires forall k :: 0 <= k < |a| ==> lo <= key(a[k])
    requires forall k :: 0 <= k < |tally| ==> tally[k] == |Filter(a, lo + k, key)|
    ensures |count| == |tally|
    ensures forall k :: 0 <= k < |count| ==> count[k] == Smaller(a, lo + k + 1, key)
  {
    count := tally;
    SmallerThanMinimum(a, lo, key);
    SmallerStep(a, lo, key);
    var i := 1;
    while i < |count|
      invariant 1 <= i <= |count| == |tally|
      invariant forall k :: 0 <= k < i ==> count[k] == Smaller(a, lo + k + 1, key)
      invariant forall k :: i <= k < |count| ==> count[k] == tally[k]
    {
      SmallerStep(a, lo + i, key);
      count := count[i := count[i] + count[i - 1]];
      i := i + 1;
    }
  }

  /** Steps 1 and 2 together: the count at offset `k` ends as the number of elements of key at most `min + k`. */
  method RunningTotals<T>(a: seq<T>, lo: int, range: int, key: T -> int) returns (count: seq<int>)
    requires range >= 1
    requires forall k :: 0 <= k < |a| ==> 0 <= key(a[k]) - lo < range
    ensures |count| == range
    ensures forall k :: 0 <= k < range ==> count[k] == Smaller(a, lo + k + 1, key)
    ensures count[range - 1] == |a|
  {
    var tally := Tally(a, lo, range, key);
    count := PrefixSums(a, lo, tally, key);
    SmallerThanBound(a, lo + (range - 1) + 1, key);
  }

  /**
   Before source index `i` is placed (indices `i + 1` onwards are done), the count at
   offset `k`: the number of elements of key below `min + k`, plus those of key `min + k`
   not yet placed.
   */
  ghost predicate CountOk<T>(count: seq<int>, a: seq<T>, i: int, lo: int, k: int, key: T -> int)
    requires -1 <= i < |a| && 0 <= k < |count|
  {
    count[k] == Smaller(a, lo + k, key) + |Filter(a[..i + 1], lo + k, key)|
  }

  /** Every count is as `CountOk` describes. */
  ghost predicate Counts<T>(count: seq<int>, a: seq<T>, i: int, lo: int, key: T -> int)
    requires -1 <= i < |a|
  {
    forall k :: 0 <= k < |count| ==> CountOk(count, a, i, lo, k, key)
  }

  /**
   The written part of the block of key `min + k`: from `count[k]` up to the end of that
   block the output holds the already placed elements of that key, in input order.
   */
  ghost predicate BlockOk<T>(output: seq<T>, count: seq<int>, a: seq<T>, i: int, lo: int, k: int, key: T -> int)
    requires -1 <= i < |a| && 0 <= k < |count|
  {
    && 0 <= count[k] <= Smaller(a, lo + k + 1, key) <= |output|
    && output[count[k]..Smaller(a, lo + k + 1, key)] == Filter(a[i + 1..], lo + k, key)
  }

  /** Every block is as `BlockOk` describes. */
  ghost predicate Written<T>(output: seq<T>, count: seq<int>, a: seq<T>, i: int, lo: int, key: T -> int)
    requires -1 <= i < |a|
  {
    forall k :: 0 <= k < |count| ==> BlockOk(output, count, a, i, lo, k, key)
  }

  /** The running totals are the counts before any placement, with nothing written yet. */
  lemma PlacementStart<T>(a: seq<T>, count: seq<int>, output: seq<T>, lo: int, key: T -> int)
    requires |a| > 0 && |output| == |a|
    requires forall k :: 0 <= k < |count| ==> count[k] == Smaller(a, lo + k + 1, key)
    ensures Counts(count, a, |a| - 1, lo, key)
    ensures Written(output, count, a, |a| - 1, lo, key)
  {
    var last := |a| - 1;
    assert a[..last + 1] == a;
    assert a[last + 1..] == [];
    forall k | 0 <= k < |count|
      ensures CountOk(count, a, last, lo, k, key) && BlockOk(output, count, a, last, lo, k, key)
    {
      SmallerStep(a, lo + k, key);
    }
  }

  /** The count of the key `v` itself, read through its offset. */
  lemma CountAt<T>(count: seq<int>, a: seq<T>, i: int, lo: int, v: int, key: T -> int)
    requires -1 <= i < |a| && lo <= v < lo + |count|
    requires Counts(count, a, i, lo, key)
    ensures count[v - lo] == Smaller(a, v, key) + |Filter(a[..i + 1], v, key)|
  {
    var k := v - lo;
    assert CountOk(count, a, i, lo, k, key);
    assert lo + k == v;
  }

  /**
   Placing source index `i` at `pos`, one below its key's count: `pos` lies in the block of
   that key, and with the count decremented the counts describe the indices below `i`.
   */
  lemma PlaceCounts<T>(a: seq<T>, count: seq<int>, count': seq<int>, i: int, lo: int, pos: int, key: T -> int)
    requires 0 <= i < |a|
    requires 0 <= key(a[i]) - lo < |count|
    requires Counts(count, a, i, lo, key)
    requires pos == count[key(a[i]) - lo] - 1 && count' == count[key(a[i]) - lo := pos]
    ensures Smaller(a, key(a[i]), key) <= pos < Smaller(a, key(a[i]) + 1, key)
    ensures Counts(count', a, i - 1, lo, key)
  {
    CountAt(count, a, i, lo, key(a[i]), key);
    BlockSlot(a, count[key(a[i]) - lo], i, key);
    CountsAfter(a, count, count', i, lo, pos, key);
  }

  /** One below the count of the key of source index `i` is a slot of that key's block. */
  lemma BlockSlot<T>(a: seq<T>, c: int, i: int, key: T -> int)
    requires 0 <= i < |a|
    requires c == Smaller(a, key(a[i]), key) + |Filter(a[..i + 1], key(a[i]), key)|
    ensures Smaller(a, key(a[i]), key) <= c - 1 < Smaller(a, key(a[i]) + 1, key)
  {
    var v := key(a[i]);
    FilterPrefix(a, i, v, key);
    SmallerStep(a, v, key);
    assert a == a[..i + 1] + a[i + 1..];
    FilterAppend(a[..i + 1], a[i + 1..], v, key);
  }

  /** With the count of its key decremented, the counts describe the indices below `i`. */
  lemma CountsAfter<T>(a: seq<T>, count: seq<int>, count': seq<int>, i: int, lo: int, pos: int, key: T -> int)
    requires 0 <= i < |a|
    requires 0 <= key(a[i]) - lo < |count|
    requires Counts(count, a, i, lo, key)
    requires pos == count[key(a[i]) - lo] - 1 && count' == count[key(a[i]) - lo := pos]
    ensures Counts(count', a, i - 1, lo, key)
  {
    var j := i - 1;
    assert a[..j + 1] == a[..i];
    forall k | 0 <= k < |count'|
      ensures CountOk(count', a, j, lo, k, key)
    {
      assert CountOk(count, a, i, lo, k, key);
      CountStep(a, count[k], count'[k], i, lo + k, key);
    }
  }

  /** The count of key `w` after the placement of source index `i`: one less exactly when `w` is its key. */
  lemma CountStep<T>(a: seq<T>, c: int, c': int, i: int, w: int, key: T -> int)
    requires 0 <= i < |a|
    requires c == Smaller(a, w, key) + |Filter(a[..i + 1], w, key)|
    requires c' == if key(a[i]) == w then c - 1 else c
    ensures c' == Smaller(a, w, key) + |Filter(a[..i], w, key)|
  {
    FilterPrefix(a, i, w, key);
    if key(a[i]) != w {
      assert Filter(a[..i + 1], w, key) == Filter(a[..i], w, key) + [];
    }
  }

  /** Updating a position outside `[lo, hi)` leaves that slice alone. */
  lemma SliceUnchanged<T>(s: seq<T>, p: int, x: T, lo: int, hi: int)
    requires 0 <= p < |s| && 0 <= lo <= hi <= |s|
    requires p < lo || hi <= p
    ensures s[p := x][lo..hi] == s[lo..hi]
  {
  }

  /** Placing source index `i` keeps the written part of every block in step. */
  lemma PlaceWritten<T>(a: seq<T>, output: seq<T>, output': seq<T>, count: seq<int>, count': seq<int>,
                        i: int, lo: int, pos: int, key: T -> int)
    requires 0 <= i < |a| == |output|
    requires 0 <= key(a[i]) - lo < |count|
    requires Counts(count, a, i, lo, key) && Written(output, count, a, i, lo, key)
    requires pos == count[key(a[i]) - lo] - 1 && count' == count[key(a[i]) - lo := pos]
    requires Smaller(a, key(a[i]), key) <= pos < Smaller(a, key(a[i]) + 1, key)
    requires output' == output[pos := a[i]]
    ensures Written(output', count', a, i - 1, lo, key)
  {
    var j := i - 1;
    forall k | 0 <= k < |count'|
      ensures BlockOk(output', count', a, j, lo, k, key)
    {
      BlockStep(a, output, output', count, count', i, lo, k, pos, key);
    }
  }

  /**
   The block of key `min + k` after the placement of source index `i` at `pos`: its own
   block grows down by one, any other is left alone.
   */
  lemma BlockStep<T>(a: seq<T>, output: seq<T>, output': seq<T>, count: seq<int>, count': seq<int>,
                     i: int, lo: int, k: int, pos: int, key: T -> int)
    requires 0 <= i < |a| == |output| && 0 <= k < |count| == |count'|
    requires Smaller(a, key(a[i]), key) <= pos < Smaller(a, key(a[i]) + 1, key)
    requires output' == output[pos := a[i]]
    requires CountOk(count, a, i, lo, k, key) && BlockOk(output, count, a, i, lo, k, key)
    requires count'[k] == if key(a[i]) == lo + k then pos else count[k]
    requires key(a[i]) == lo + k ==> pos == count[k] - 1
    ensures BlockOk(output', count', a, i - 1, lo, k, key)
  {
    assert a[i - 1 + 1..] == a[i..];
    if key(a[i]) == lo + k {
      OwnBlockGrows(a, output, output', i, pos, lo + k, count[k], Smaller(a, lo + k + 1, key), key);
    } else {
      OtherBlockKept(a, output, output', i, pos, lo + k, count[k], Smaller(a, lo + k + 1, key), key);
    }
  }

  /** Writing source index `i` just below the written part of its key's block extends that part by one. */
  lemma OwnBlockGrows<T>(a: seq<T>, output: seq<T>, output': seq<T>, i: int, pos: int, w: int, c: int, end: int,
                         key: T -> int)
    requires 0 <= i < |a| && key(a[i]) == w
    requires 0 <= pos == c - 1 && c <= end <= |output|
    requires output' == output[pos := a[i]]
    requires output[c..end] == Filter(a[i + 1..], w, key)
    ensures output'[pos..end] == Filter(a[i..], w, key)
  {
    assert a[i..] == [a[i]] + a[i + 1..];
    FilterCons(a[i], a[i + 1..], w, key);
    assert output'[pos..end] == [a[i]] + output[c..end];
  }

  /** Writing source index `i` inside its own key's block leaves the block of any other key `w` alone. */
  lemma OtherBlockKept<T>(a: seq<T>, output: seq<T>, output': seq<T>, i: int, pos: int, w: int, c: int, end: int,
                          key: T -> int)
    requires 0 <= i < |a| && key(a[i]) != w
    requires Smaller(a, key(a[i]), key) <= pos < Smaller(a, key(a[i]) + 1, key) && pos < |output|
    requires Smaller(a, w, key) <= c <= end == Smaller(a, w + 1, key) && end <= |output|
    requires output' == output[pos := a[i]]
    requires output[c..end] == Filter(a[i + 1..], w, key)
    ensures output'[c..end] == Filter(a[i..], w, key)
  {
    var v := key(a[i]);
    if v < w {
      SmallerMonotone(a, v + 1, w, key);
      assert pos < c;
    } else {
      SmallerMonotone(a, w + 1, v, key);
      assert end <= pos;
    }
    SliceUnchanged(output, pos, a[i], c, end);
    assert a[i..] == [a[i]] + a[i + 1..];
    FilterCons(a[i], a[i + 1..], w, key);
    assert Filter(a[i..], w, key) == [] + Filter(a[i + 1..], w, key);
  }

  /** The output holds, at the block of key `v`, exactly the input's elements of that key. */
  ghost predicate BlockHolds<T>(output: seq<T>, a: seq<T>, v: int, key: T -> int) {
    && Smaller(a, v, key) <= Smaller(a, v + 1, key) <= |output|
    && output[Smaller(a, v, key)..Smaller(a, v + 1, key)] == Filter(a, v, key)
  }

  /** Blocks that each hold their key's elements tile, from key `lo` to key `hi`, into the reference blocks. */
  lemma {:induction false} Assemble<T>(a: seq<T>, output: seq<T>, lo: int, hi: int, key: T -> int)
    requires lo <= hi && |output| == |a|
    requires forall v :: lo <= v < hi ==> BlockHolds(output, a, v, key)
    ensures Smaller(a, lo, key) <= Smaller(a, hi, key) <= |output|
    ensures output[Smaller(a, lo, key)..Smaller(a, hi, key)] == Blocks(a, lo, hi, key)
    decreases hi - lo
  {
    if lo < hi {
      Assemble(a, output, lo + 1, hi, key);
      assert BlockHolds(output, a, lo, key);
      var p, q, e := Smaller(a, lo, key), Smaller(a, lo + 1, key), Smaller(a, hi, key);
      assert output[p..e] == output[p..q] + output[q..e];
    }
  }

  /** After the last placement the written blocks tile the output: it is the reference blocks. */
  lemma PlacementDone<T>(a: seq<T>, output: seq<T>, count: seq<int>, lo: int, hi: int, key: T -> int)
    requires |a| > 0 && |output| == |a| && hi == lo + |count|
    requires forall k :: 0 <= k < |a| ==> 0 <= key(a[k]) - lo < |count|
    requires Counts(count, a, -1, lo, key) && Written(output, count, a, -1, lo, key)
    ensures output == Blocks(a, lo, hi, key)
  {
    assert a[..-1 + 1] == [] && a[-1 + 1..] == a;
    forall v | lo <= v < hi
      ensures BlockHolds(output, a, v, key)
    {
      var k := v - lo;
      assert CountOk(count, a, -1, lo, k, key) && BlockOk(output, count, a, -1, lo, k, key);
      assert lo + k == v;
    }
    Assemble(a, output, lo, hi, key);
    SmallerThanMinimum(a, lo, key);
    SmallerThanBound(a, hi, key);
    assert output[0..|a|] == output;
  }

  /**
   Pause `t` of the placement scan over `n` elements: pause `2p` highlights source index
   `n - 1 - p` before its placement, under the counter of the previous round (the marker the
   page held before the run, for the very first pause); pause `2p + 1` highlights the same
   index and shows the counter at `p + 1`, the number of elements placed.
   */
  predicate CountPause<T>(st: Step<T>, t: int, n: int, marker0: Marker) {
    && |st.shown| == n
    && st.highlighted == [n - 1 - t / 2]
    && st.marker == (if t % 2 == 1 then At(t / 2 + 1) else if t == 0 then marker0 else At(t / 2))
  }

  /** The pauses recorded so far, each in its place. */
  predicate CountPauses<T>(steps: seq<Step<T>>, n: int, marker0: Marker) {
    forall t :: 0 <= t < |steps| ==> CountPause(steps[t], t, n, marker0)
  }

  /** The two pauses of the placement of source index `i` follow those of the indices above it. */
  lemma PausesExtend<T>(steps: seq<Step<T>>, shown: seq<T>, output: seq<T>, i: int, n: int, marker0: Marker)
    requires 0 <= i < n && |steps| == 2 * (n - 1 - i) && |shown| == n && |output| == n
    requires CountPauses(steps, n, marker0)
    ensures CountPauses(steps + [Step(shown, [i], if i == n - 1 then marker0 else At(n - 1 - i)),
                                 Step(output, [i], At(n - i))], n, marker0)
  {
  }

  /** No position occurs twice. */
  predicate Distinct(s: seq<int>) {
    forall t, u :: 0 <= t < u < |s| ==> s[t] != s[u]
  }

  /**
   Slot `t` was used for source index `n - 1 - t`: it lies in that key's block, at or
   above the key's current count.
   */
  ghost predicate SlotOk<T>(slots: seq<int>, count: seq<int>, a: seq<T>, lo: int, t: int, key: T -> int)
    requires 0 <= t < |slots| <= |a|
  {
    var w := key(a[|a| - 1 - t]);
    && 0 <= w - lo < |count|
    && Smaller(a, w, key) <= slots[t] < Smaller(a, w + 1, key)
    && count[w - lo] <= slots[t]
  }

  /** Every slot used so far is as `SlotOk` describes. */
  ghost predicate SlotsFit<T>(slots: seq<int>, count: seq<int>, a: seq<T>, lo: int, key: T -> int) {
    && |slots| <= |a|
    && forall t :: 0 <= t < |slots| ==> SlotOk(slots, count, a, lo, t, key)
  }

  /**
   The slot of source index `i` lies in its key's block below every slot used so far for
   that key, and outside the other blocks, so it differs from all of them; the bounds of
   earlier slots survive the decrement.
   */
  lemma SlotsStep<T>(a: seq<T>, count: seq<int>, count': seq<int>, slots: seq<int>, i: int, lo: int, pos: int, key: T -> int)
    requires 0 <= i < |a| && |slots| == |a| - 1 - i
    requires 0 <= key(a[i]) - lo < |count|
    requires pos == count[key(a[i]) - lo] - 1 && count' == count[key(a[i]) - lo := pos]
    requires Smaller(a, key(a[i]), key) <= pos < Smaller(a, key(a[i]) + 1, key)
    requires SlotsFit(slots, count, a, lo, key) && Distinct(slots)
    ensures SlotsFit(slots + [pos], count', a, lo, key) && Distinct(slots + [pos])
  {
    var v, slots' := key(a[i]), slots + [pos];
    forall t | 0 <= t < |slots|
      ensures slots'[t] == slots[t] != pos && SlotOk(slots', count', a, lo, t, key)
    {
      assert SlotOk(slots, count, a, lo, t, key);
      var w := key(a[|a| - 1 - t]);
      if w < v {
        SmallerMonotone(a, w + 1, v, key);
      } else if v < w {
        SmallerMonotone(a, v + 1, w, key);
      }
    }
    assert |a| - 1 - |slots| == i;
    assert SlotOk(slots', count', a, lo, |slots|, key);
  }

  /**
   Placement `t` (of source index `n - 1 - t`) as the page shows it: its first pause shows
   the array shown before it (the input, before the first placement), and its second pause
   shows the output as it was, zero-filled before the first placement, with only slot
   `slots[t]` overwritten by the element placed.
   */
  ghost predicate SlotWritten<T>(steps: seq<Step<T>>, slots: seq<int>, a: seq<T>, zero: T, t: int)
    requires 0 <= t < |slots| <= |a| && 2 * t + 1 < |steps|
  {
    var before := if t == 0 then seq(|a|, _ => zero) else steps[2 * t - 1].shown;
    && 0 <= slots[t] < |before|
    && steps[2 * t].shown == (if t == 0 then a else before)
    && steps[2 * t + 1].shown == before[slots[t] := a[|a| - 1 - t]]
  }

  /** Every placement so far wrote exactly its slot, as `SlotWritten` describes. */
  ghost predicate SlotsWritten<T>(steps: seq<Step<T>>, slots: seq<int>, a: seq<T>, zero: T) {
    && |slots| <= |a| && |steps| == 2 * |slots|
    && forall t :: 0 <= t < |slots| ==> SlotWritten(steps, slots, a, zero, t)
  }

  /** The two pauses of one more placement extend the record of the slots written. */
  lemma WritesExtend<T>(steps: seq<Step<T>>, slots: seq<int>, a: seq<T>, zero: T, output: seq<T>, pos: int,
                        shown: seq<T>, h0: seq<int>, h1: seq<int>, m0: Marker, m1: Marker)
    requires SlotsWritten(steps, slots, a, zero) && |slots| < |a|
    requires output == if slots == [] then seq(|a|, _ => zero) else steps[|steps| - 1].shown
    requires shown == if slots == [] then a else output
    requires 0 <= pos < |output|
    ensures SlotsWritten(steps + [Step(shown, h0, m0), Step(output[pos := a[|a| - 1 - |slots|]], h1, m1)],
                         slots + [pos], a, zero)
  {
    var steps' := steps + [Step(shown, h0, m0), Step(output[pos := a[|a| - 1 - |slots|]], h1, m1)];
    var slots' := slots + [pos];
    forall t | 0 <= t < |slots'|
      ensures SlotWritten(steps', slots', a, zero, t)
    {
      if t < |slots| {
        assert SlotWritten(steps, slots, a, zero, t);
        assert steps'[2 * t] == steps[2 * t] && steps'[2 * t + 1] == steps[2 * t + 1];
        if t > 0 {
          assert steps'[2 * t - 1] == steps[2 * t - 1];
        }
      } else if t > 0 {
        assert steps'[2 * t - 1] == steps[|steps| - 1];
      }
    }
  }

  /** Every slot lies in some key's block, so inside the output. */
  lemma SlotsInside<T>(a: seq<T>, slots: seq<int>, count: seq<int>, lo: int, key: T -> int)
    requires SlotsFit(slots, count, a, lo, key)
    ensures forall t :: 0 <= t < |slots| ==> 0 <= slots[t] < |a|
  {
    forall t | 0 <= t < |slots|
      ensures 0 <= slots[t] < |a|
    {
      assert SlotOk(slots, count, a, lo, t, key);
    }
  }

  /**
   Step 3, the placement: source indices from the last to the first, each written at
   `count[value - min] - 1` of the output, which starts as `n` copies of `zero`. The result
   is the reference blocks. Placement `t` writes slot `slots[t]` and nothing else, as the
   arrays of its two pauses show, and the `n` slots are distinct positions inside the
   output, so every slot is written exactly once.
   */
  method Place<T>(a: seq<T>, lo: int, hi: int, count0: seq<int>, key: T -> int, zero: T, marker0: Marker)
    returns (output: seq<T>, steps: seq<Step<T>>, ghost slots: seq<int>)
    requires |a| > 0
    requires forall k :: 0 <= k < |a| ==> 0 <= key(a[k]) - lo < |count0|
    requires hi == lo + |count0|
    requires forall k :: 0 <= k < |count0| ==> count0[k] == Smaller(a, lo + k + 1, key)
    ensures output == Blocks(a, lo, hi, key)
    ensures |steps| == 2 * |a| && CountPauses(steps, |a|, marker0)
    ensures LastShown(a, steps) == output
    ensures |slots| == |a| && Distinct(slots)
    ensures forall t :: 0 <= t < |slots| ==> 0 <= slots[t] < |a|
    ensures SlotsWritten(steps, slots, a, zero)
  {
    var n := |a|;
    var count := count0;
    output := seq(n, _ => zero);
    steps, slots := [], [];
    var shown := a;
    PlacementStart(a, count, output, lo, key);
    var i := n - 1;
    while i >= 0
      invariant -1 <= i < n && |output| == n && |count| == |count0| && |shown| == n
      invariant Counts(count, a, i, lo, key) && Written(output, count, a, i, lo, key)
      invariant |steps| == 2 * (n - 1 - i) && CountPauses(steps, n, marker0)
      invariant shown == LastShown(a, steps) && (i < n - 1 ==> shown == output)
      invariant |slots| == n - 1 - i && SlotsFit(slots, count, a, lo, key) && Distinct(slots)
      invariant SlotsWritten(steps, slots, a, zero)
      invariant output == if slots == [] then seq(n, _ => zero) else steps[|steps| - 1].shown
      invariant shown == if slots == [] then a else output
    {
      var slot := key(a[i]) - lo;
      var pos := count[slot] - 1;
      var count' := count[slot := pos];
      PlaceCounts(a, count, count', i, lo, pos, key);
      var output' := output[pos := a[i]];
      PlaceWritten(a, output, output', count, count', i, lo, pos, key);
      SlotsStep(a, count, count', slots, i, lo, pos, key);
      PausesExtend(steps, shown, output', i, n, marker0);
      WritesExtend(steps, slots, a, zero, output, pos, shown, [i], [i],
                   if i == n - 1 then marker0 else At(n - 1 - i), At(n - i));
      steps := steps + [Step(shown, [i], if i == n - 1 then marker0 else At(n - 1 - i)), Step(output', [i], At(n - i))];
      output, count, slots, shown := output', count', slots + [pos], output';
      i := i - 1;
    }
    PlacementDone(a, output, count, lo, hi, key);
    SlotsInside(a, slots, count, lo, key);
  }

  /**
   `countingSort` on an input the allocations accept: the page ends showing a stable sort
   of the input (the reference blocks from the smallest to the largest key, by `SortKeys`),
   with two pauses per element and the counter counting the placed elements up to `n`.
   */
  method CountingSort<T>(a: seq<T>, key: T -> int, zero: T, marker0: Marker)
    returns (r: seq<T>, trace: seq<Step<T>>)
    requires Allocatable(a, key)
    ensures SortedBy(r, key) && SameOrderPerKey(r, a, key) && multiset(r) == multiset(a)
    ensures |trace| == 2 * |a| && CountPauses(trace, |a|, marker0)
    ensures r == LastShown(a, trace)
  {
    var lo, hi := MinKey(a, key), MaxKey(a, key) + 1;
    r, trace := SortKeys(a, lo, hi, key, zero, marker0);
  }

  /**
   The three steps once the smallest key `lo` and the bound `hi` (one above the largest
   key) are known: the result is the reference blocks from `lo` to `hi`.
   */
  method SortKeys<T>(a: seq<T>, lo: int, hi: int, key: T -> int, zero: T, marker0: Marker)
    returns (r: seq<T>, trace: seq<Step<T>>)
    requires |a| > 0 && lo < hi
    requires forall k :: 0 <= k < |a| ==> lo <= key(a[k]) < hi
    ensures r == Blocks(a, lo, hi, key)
    ensures SortedBy(r, key) && SameOrderPerKey(r, a, key) && multiset(r) == multiset(a)
    ensures |trace| == 2 * |a| && CountPauses(trace, |a|, marker0)
    ensures r == LastShown(a, trace)
  {
    var count := RunningTotals(a, lo, hi - lo, key);
    ghost var slots;
    r, trace, slots := Place(a, lo, hi, count, key, zero, marker0);
    BlocksStableSort(a, lo, hi, key);
  }

  /**
   `handleSort` followed by the run it starts: ignored while a run is in progress. On an
   input the allocations accept, the page ends idle with the sorted array, no highlight
   and the counter at `n`. Otherwise (an empty array, or a range `new Array` rejects) the
   run throws before its first pause and the page stays marked as sorting, unchanged.
   */
  method Launch(s: Session) returns (s': Session, trace: seq<Step<int>>)
    ensures s.sorting ==> s' == s && trace == []
    ensures !s.sorting && Allocatable(s.values, Identity) ==>
              && Sorted(s'.values) && multiset(s'.values) == multiset(s.values)
              && !s'.sorting && s'.highlighted == [] && s'.marker == At(|s.values|)
              && |trace| == 2 * |s.values| && CountPauses(trace, |s.values|, s.marker)
    ensures !s.sorting && !Allocatable(s.values, Identity) ==> s' == s.(sorting := true) && trace == []
    ensures !s.sorting && s.values == Fixture ==> s'.values == SortedFixture
  {
    if s.sorting {
      return s, [];
    }
    if s.values == Fixture {
      FixtureRange();
    }
    if !Allocatable(s.values, Identity) {
      return s.(sorting := true), [];
    }
    var r;
    r, trace := CountingSort(s.values, Identity, 0, s.marker);
    SortedByIdentity(r);
    s' := s.(values := r, sorting := false, highlighted := [], marker := At(|s.values|));
    if s.values == Fixture {
      FixtureOutcome(r);
    }
  }
}

=== FILE: heap.dfy ===
/**
 The heap sort page: `heapSort`, `heapify` and the `sortedIndex` boundary marker (the page
 shows every index at or above it as sorted), and the start and reset buttons. The array
 is read as a binary tree with the children of `i` at `2i+1` and `2i+2`.
 */
module Heap {
  import opened Common

  /** Node `k`, which is not the root, holds no more than its parent `(k - 1) / 2`. */
  predicate Dominated(s: seq<int>, k: int)
    requires 1 <= k < |s|
  {
    s[k] <= s[(k - 1) / 2]
  }

  /** Within `[0, n)`, every node whose parent is at index `lo` or later is dominated. */
  predicate HeapFrom(s: seq<int>, lo: int, n: int)
    requires 0 <= n <= |s|
  {
    forall k {:trigger Dominated(s, k)} :: 1 <= k < n && lo <= (k - 1) / 2 ==> Dominated(s, k)
  }

  /** `HeapFrom`, except possibly for the children of `i`. */
  predicate HeapExcept(s: seq<int>, lo: int, n: int, i: int)
    requires 0 <= n <= |s|
  {
    forall k {:trigger Dominated(s, k)} :: 1 <= k < n && lo <= (k - 1) / 2 && (k - 1) / 2 != i ==> Dominated(s, k)
  }

  /** When `i` has a parent inside the heap part, that parent dominates the children of `i`. */
  predicate GrandparentBound(s: seq<int>, lo: int, n: int, i: int)
    requires 0 <= i && 0 <= n <= |s|
  {
    i >= 1 && lo <= (i - 1) / 2 ==>
      && (2 * i + 1 < n ==> s[2 * i + 1] <= s[(i - 1) / 2])
      && (2 * i + 2 < n ==> s[2 * i + 2] <= s[(i - 1) / 2])
  }

  /** A pause of heap sort: a pair `(p, q)` with `0 <= p < q < n` over an array of length `n`. */
  predicate HeapPause(st: Step<int>, n: int) {
    && |st.highlighted| == 2
    && 0 <= st.highlighted[0] < st.highlighted[1] < n
    && |st.shown| == n
  }

  /** The marker of `st` is a boundary, and every index at or above it already holds its value in `r`. */
  predicate SettledFrom(st: Step<int>, r: seq<int>) {
    && st.marker.At?
    && 0 <= st.marker.index
    && |st.shown| == |r|
    && forall k :: st.marker.index <= k < |r| ==> st.shown[k] == r[k]
  }

  /** In a heap over `[0, n)`, the root is the maximum. */
  lemma {:induction false} RootIsMax(s: seq<int>, n: int, k: int)
    requires 0 <= k < n <= |s| && HeapFrom(s, 0, n)
    ensures s[k] <= s[0]
    decreases k
  {
    if k > 0 {
      assert Dominated(s, k);
      RootIsMax(s, n, (k - 1) / 2);
    }
  }

  /**
   Exchanging `i` with its larger child `c`, which beats it, moves the possible defect
   one level down, to the children of `c`.
   */
  lemma SiftStep(s: seq<int>, lo: int, n: int, i: int, c: int)
    requires 0 <= lo <= i < c < n <= |s|
    requires c == 2 * i + 1 || c == 2 * i + 2
    requires HeapExcept(s, lo, n, i) && GrandparentBound(s, lo, n, i)
    requires s[c] > s[i]
    requires 2 * i + 1 < n ==> s[2 * i + 1] <= s[c]
    requires 2 * i + 2 < n ==> s[2 * i + 2] <= s[c]
    ensures HeapExcept(Swap(s, i, c), lo, n, c) && GrandparentBound(Swap(s, i, c), lo, n, c)
  {
    var t := Swap(s, i, c);
    forall k | 1 <= k < n && lo <= (k - 1) / 2 && (k - 1) / 2 != c
      ensures Dominated(t, k)
    {
      var p := (k - 1) / 2;
      if k == c {
        assert p == i;
      } else if k == i {
        assert t[p] == s[p];
      } else if p == i {
        assert t[k] == s[k];
      } else {
        assert Dominated(s, k);
        assert t[k] == s[k] && t[p] == s[p];
      }
    }
    if 2 * c + 1 < n {
      assert Dominated(s, 2 * c + 1);
    }
    if 2 * c + 2 < n {
      assert Dominated(s, 2 * c + 2);
    }
  }

  /** A node at least as large as both its children repairs the only possible defect. */
  lemma SiftDone(s: seq<int>, lo: int, n: int, i: int)
    requires 0 <= lo <= i < n <= |s|
    requires HeapExcept(s, lo, n, i)
    requires 2 * i + 1 < n ==> s[2 * i + 1] <= s[i]
    requires 2 * i + 2 < n ==> s[2 * i + 2] <= s[i]
    ensures HeapFrom(s, lo, n)
  {
  }

  /** The exchange of `i` with its child `c` touches nothing below `i` and nothing from `n` on. */
  lemma SiftFrame(s: seq<int>, n: int, i: int, c: int)
    requires 0 <= i < c < n <= |s|
    ensures Swap(s, i, c)[..i] == s[..i] && Swap(s, i, c)[n..] == s[n..]
  {
  }

  /**
   What the recursive call on the child `c` leaves behind, seen from `i`: the frame, the
   multiset and, when the defect was only at `i`, the repaired heap.
   */
  lemma SiftLink(s: seq<int>, r: seq<int>, lo: int, n: int, i: int, c: int)
    requires 0 <= lo <= i < c < n <= |s| == |r|
    requires c == 2 * i + 1 || c == 2 * i + 2
    requires s[c] > s[i]
    requires 2 * i + 1 < n ==> s[2 * i + 1] <= s[c]
    requires 2 * i + 2 < n ==> s[2 * i + 2] <= s[c]
    requires multiset(r) == multiset(Swap(s, i, c))
    requires r[..c] == Swap(s, i, c)[..c] && r[n..] == Swap(s, i, c)[n..]
    requires HeapExcept(Swap(s, i, c), lo, n, c) && GrandparentBound(Swap(s, i, c), lo, n, c) ==> HeapFrom(r, lo, n)
    ensures multiset(r) == multiset(s)
    ensures r[..i] == s[..i] && r[n..] == s[n..]
    ensures HeapExcept(s, lo, n, i) && GrandparentBound(s, lo, n, i) ==> HeapFrom(r, lo, n)
  {
    SiftFrame(s, n, i, c);
    assert r[..i] == r[..c][..i];
    if HeapExcept(s, lo, n, i) && GrandparentBound(s, lo, n, i) {
      SiftStep(s, lo, n, i, c);
    }
  }

  /**
   The pauses of one `heapify(arr, n, i)` call: pairs within `[i, n)` over an array of the
   length of `arr`, under the unchanged marker, with nothing from `n` on touched.
   */
  predicate SiftPauses(steps: seq<Step<int>>, arr: seq<int>, n: int, i: int, marker: Marker)
    requires 0 <= n <= |arr|
  {
    forall t :: 0 <= t < |steps| ==>
      && HeapPause(steps[t], |arr|) && i <= steps[t].highlighted[0] && steps[t].highlighted[1] < n
      && steps[t].marker == marker && steps[t].shown[n..] == arr[n..]
  }

  /** The pause on `(i, c)` followed by the pauses of the recursive call on `c`. */
  lemma SiftPausesCons(st: Step<int>, rest: seq<Step<int>>, arr: seq<int>, swapped: seq<int>, n: int, i: int, c: int, marker: Marker)
    requires 0 <= i < c < n <= |arr| == |swapped|
    requires st == Step(arr, [i, c], marker)
    requires swapped[n..] == arr[n..]
    requires SiftPauses(rest, swapped, n, c, marker)
    ensures SiftPauses([st] + rest, arr, n, i, marker)
  {
  }

  /** Some child of `i` inside `[0, n)` is strictly greater than `s[i]`. */
  predicate ChildBeats(s: seq<int>, n: int, i: int)
    requires 0 <= i && n <= |s|
  {
    (2 * i + 1 < n && s[2 * i + 1] > s[i]) || (2 * i + 2 < n && s[2 * i + 2] > s[i])
  }

  /**
   `c` is the `largest` that `heapify` picks at `i` when a child wins: a child inside
   `[0, n)`, strictly greater than `s[i]`, no smaller than the other child, and the left
   one when the two children are equal.
   */
  predicate LargestChild(s: seq<int>, n: int, i: int, c: int)
    requires 0 <= i && n <= |s|
  {
    && (c == 2 * i + 1 || c == 2 * i + 2) && c < n
    && s[c] > s[i]
    && (2 * i + 1 < n ==> s[2 * i + 1] <= s[c])
    && (2 * i + 2 < n ==> s[2 * i + 2] <= s[c])
    && (c == 2 * i + 2 ==> s[2 * i + 1] < s[c])
  }

  /**
   The choice of `largest` in `heapify`: `i` itself unless a child inside `[0, n)` is
   strictly greater, and then the greater child, the left one on a tie.
   */
  method PickLargest(arr: seq<int>, n: int, i: int) returns (largest: int)
    requires 0 <= i < n <= |arr|
    ensures largest == i <==> !ChildBeats(arr, n, i)
    ensures largest != i ==> LargestChild(arr, n, i, largest)
  {
    largest := i;
    var left := 2 * i + 1;
    var right := 2 * i + 2;
    if left < n && arr[left] > arr[largest] {
      largest := left;
    }
    if right < n && arr[right] > arr[largest] {
      largest := right;
    }
  }

  /**
   `heapify(arr, n, i)`: `largest` is chosen among `i` and its children inside `[0, n)`,
   a child winning only when strictly greater, the left one on a tie. Only if a child
   wins does the page pause, on the pair `(i, largest)` over the array before the
   exchange; then `i` receives that child's value and the call recurses into `largest`.
   Indices below `i` and from `n` on are never touched; the subtree at `i` becomes a heap
   when only the children of `i` could be out of order.
   */
  method Heapify(arr: seq<int>, n: int, i: int, ghost lo: int, marker: Marker) returns (r: seq<int>, steps: seq<Step<int>>)
    requires 0 <= lo <= i < n <= |arr|
    decreases n - i
    ensures |r| == |arr| && multiset(r) == multiset(arr)
    ensures r[..i] == arr[..i] && r[n..] == arr[n..]
    ensures HeapExcept(arr, lo, n, i) && GrandparentBound(arr, lo, n, i) ==> HeapFrom(r, lo, n)
    ensures SiftPauses(steps, arr, n, i, marker)
    ensures steps == [] <==> !ChildBeats(arr, n, i)
    ensures steps == [] ==> r == arr
    ensures steps != [] ==> && steps[0] == Step(arr, [i, steps[0].highlighted[1]], marker)
                            && LargestChild(arr, n, i, steps[0].highlighted[1])
                            && r[i] == arr[steps[0].highlighted[1]]
  {
    var largest := PickLargest(arr, n, i);
    if largest != i {
      var st := Step(arr, [i, largest], marker);
      var swapped := Swap(arr, i, largest);
      SiftFrame(arr, n, i, largest);
      var rest;
      r, rest := Heapify(swapped, n, largest, lo, marker);
      SiftPausesCons(st, rest, arr, swapped, n, i, largest, marker);
      SiftLink(arr, r, lo, n, i, largest);
      assert r[i] == r[..largest][i] == swapped[i];
      steps := [st] + rest;
      assert steps[0] == st;
    } else {
      r, steps := arr, [];
      if HeapExcept(arr, lo, n, i) {
        SiftDone(arr, lo, n, i);
      }
    }
  }

  /** The build loop: `heapify` for `i` from `floor(n/2) - 1` down to 0 makes the whole array a heap. */
  method BuildHeap(a: seq<int>, marker: Marker) returns (r: seq<int>, steps: seq<Step<int>>)
    ensures |r| == |a| && multiset(r) == multiset(a)
    ensures HeapFrom(r, 0, |r|)
    ensures forall t :: 0 <= t < |steps| ==> HeapPause(steps[t], |a|) && steps[t].marker == marker
  {
    var n := |a|;
    r, steps := a, [];
    var i := n / 2 - 1;
    while i >= 0
      invariant -1 <= i <= n / 2 - 1
      invariant |r| == n && multiset(r) == multiset(a)
      invariant HeapFrom(r, i + 1, n)
      invariant forall t :: 0 <= t < |steps| ==> HeapPause(steps[t], n) && steps[t].marker == marker
    {
      var more;
      r, more := Heapify(r, n, i, i, marker);
      steps := steps + more;
      i := i - 1;
    }
  }

  /**
   Exchanging the root of the heap `[0, i]` with `i` extends the sorted suffix down to
   `i` and leaves `[0, i)` a heap except for the children of the root.
   */
  lemma ExtractStep(r: seq<int>, i: int)
    requires 0 < i < |r|
    requires HeapFrom(r, 0, i + 1)
    requires Sorted(r[i + 1..]) && Below(r[..i + 1], r[i + 1..])
    ensures Sorted(Swap(r, 0, i)[i..]) && Below(Swap(r, 0, i)[..i], Swap(r, 0, i)[i..])
    ensures HeapExcept(Swap(r, 0, i), 0, i, 0)
  {
    var t := Swap(r, 0, i);
    forall k | 0 <= k <= i
      ensures r[k] <= r[0]
    {
      RootIsMax(r, i + 1, k);
    }
    forall p, q | i <= p < q < |t|
      ensures t[p] <= t[q]
    {
      assert t[q] == r[i + 1..][q - i - 1];
      if p == i {
        assert r[0] == r[..i + 1][0];
      } else {
        assert t[p] == r[i + 1..][p - i - 1];
      }
    }
    forall p, q | 0 <= p < i <= q < |t|
      ensures t[p] <= t[q]
    {
      var p' := if p == 0 then i else p;
      assert t[p] == r[p'] <= r[0];
      if q > i {
        assert r[p'] == r[..i + 1][p'] && t[q] == r[i + 1..][q - i - 1];
      }
    }
    forall k | 1 <= k < i && 0 <= (k - 1) / 2 && (k - 1) / 2 != 0
      ensures Dominated(t, k)
    {
      assert Dominated(r, k);
    }
  }

  /**
   The pauses of the extraction phase so far, with `[i + 1, n)` already final in `r`: each
   highlights a valid pair, and its marker is either the one the run started with or a
   boundary above `i` from which on the shown array already agrees with `r`.
   */
  predicate ExtractTrace(trace: seq<Step<int>>, r: seq<int>, i: int, marker0: Marker) {
    forall t :: 0 <= t < |trace| ==>
      && HeapPause(trace[t], |r|)
      && (trace[t].marker == marker0 || (SettledFrom(trace[t], r) && i < trace[t].marker.index))
  }

  /**
   One extraction round at `i`: the pause before the exchange (under the previous marker),
   the pause after it (marker at `i`), then the pauses of `heapify(arr, i, 0)`, which only
   touch `[0, i)`.
   */
  lemma ExtractTraceStep(trace: seq<Step<int>>, r: seq<int>, swapped: seq<int>, r': seq<int>,
                         steps: seq<Step<int>>, i: int, marker: Marker, marker0: Marker)
    requires 0 < i < |r| == |swapped| == |r'|
    requires ExtractTrace(trace, r, i, marker0)
    requires marker == marker0 || marker == At(i + 1)
    requires forall k :: i < k < |r| ==> r'[k] == r[k]
    requires swapped[i..] == r'[i..]
    requires SiftPauses(steps, swapped, i, 0, At(i))
    ensures ExtractTrace(trace + [Step(r, [0, i], marker), Step(swapped, [0, i], At(i))] + steps, r', i - 1, marker0)
  {
  }

  /**
   After the exchange at `i` and the repair of `[0, i)`, the heap shrinks to `[0, i)` and
   the sorted suffix grows to `[i, n)`.
   */
  lemma ExtractRound(r: seq<int>, swapped: seq<int>, r': seq<int>, i: int)
    requires 0 < i < |r| == |r'|
    requires swapped == Swap(r, 0, i)
    requires HeapFrom(r, 0, i + 1)
    requires Sorted(r[i + 1..]) && Below(r[..i + 1], r[i + 1..])
    requires multiset(r') == multiset(swapped) && r'[i..] == swapped[i..]
    ensures Sorted(r'[i..]) && Below(r'[..i], r'[i..])
    ensures multiset(r') == multiset(r)
    ensures forall k :: i < k < |r| ==> r'[k] == r[k]
  {
    ExtractStep(r, i);
    PrefixPermutation(r', swapped, i);
    PermutationKeepsBelow(r'[..i], swapped[..i], swapped[i..]);
    forall k | i < k < |r|
      ensures r'[k] == r[k]
    {
      assert r'[k] == r'[i..][k - i];
    }
  }

  /** Forgetting the bound on the boundaries of an extraction trace. */
  lemma ExtractTraceDone(trace: seq<Step<int>>, r: seq<int>, i: int, marker0: Marker)
    requires ExtractTrace(trace, r, i, marker0)
    ensures forall t :: 0 <= t < |trace| ==>
              && HeapPause(trace[t], |r|)
              && (trace[t].marker == marker0 || SettledFrom(trace[t], r))
  {
  }

  /** The pauses of the build phase, all under the starting marker, form an extraction trace. */
  lemma BuildTrace(trace: seq<Step<int>>, r: seq<int>, i: int, marker0: Marker)
    requires forall t :: 0 <= t < |trace| ==> HeapPause(trace[t], |r|) && trace[t].marker == marker0
    ensures ExtractTrace(trace, r, i, marker0)
  {
  }

  /**
   `heapSort`: the result is a sorted permutation of the input. Every pause highlights a
   valid pair `(p, q)`, `p < q`; apart from the marker the page held when the run started,
   every marker is a boundary at or above which the shown array already holds its final
   values, so "index >= sortedIndex" is exactly a finished suffix. The run ends with the
   marker at 0.
   */
  method HeapSort(a: seq<int>, marker0: Marker) returns (r: seq<int>, trace: seq<Step<int>>, marker: Marker)
    ensures Sorted(r) && multiset(r) == multiset(a)
    ensures marker == At(0)
    ensures forall t :: 0 <= t < |trace| ==>
              && HeapPause(trace[t], |a|)
              && (trace[t].marker == marker0 || SettledFrom(trace[t], r))
  {
    var n := |a|;
    r, trace := BuildHeap(a, marker0);
    BuildTrace(trace, r, n - 1, marker0);
    marker := marker0;
    var i := n - 1;
    while i > 0
      invariant -1 <= i < n && (i >= 0 || n == 0)
      invariant |r| == n && multiset(r) == multiset(a)
      invariant HeapFrom(r, 0, i + 1)
      invariant Sorted(r[i + 1..]) && Below(r[..i + 1], r[i + 1..])
      invariant marker == if i == n - 1 then marker0 else At(i + 1)
      invariant ExtractTrace(trace, r, i, marker0)
    {
      var swapped := Swap(r, 0, i);
      ExtractStep(r, i);
      var r', steps := Heapify(swapped, i, 0, 0, At(i));
      ExtractRound(r, swapped, r', i);
      ExtractTraceStep(trace, r, swapped, r', steps, i, marker, marker0);
      trace := trace + [Step(r, [0, i], marker), Step(swapped, [0, i], At(i))] + steps;
      r, marker := r', At(i);
      i := i - 1;
    }
    if n > 0 {
      SortedJoin(r, 1);
    }
    ExtractTraceDone(trace, r, i, marker0);
    marker := At(0);
  }

  /**
   `handleSort` followed by the run it starts: ignored while a run is in progress;
   otherwise the page ends idle with a sorted permutation of its array, no highlight, and
   the boundary at 0 so that every index is shown as sorted. Every pause highlights a
   pair inside the array, under the old marker or a boundary already final.
   */
  method Launch(s: Session) returns (s': Session, trace: seq<Step<int>>)
    ensures s.sorting ==> s' == s && trace == []
    ensures !s.sorting ==> && Sorted(s'.values) && multiset(s'.values) == multiset(s.values)
                           && !s'.sorting && s'.highlighted == [] && s'.marker == At(0)
    ensures !s.sorting ==> forall t :: 0 <= t < |trace| ==>
              && HeapPause(trace[t], |s.values|)
              && (trace[t].marker == s.marker || SettledFrom(trace[t], s'.values))
    ensures !s.sorting && s.values == Fixture ==> s'.values == SortedFixture
  {
    if s.sorting {
      return s, [];
    }
    var r, marker;
    r, trace, marker := HeapSort(s.values, s.marker);
    s' := s.(values := r, sorting := false, highlighted := [], marker := marker);
    if s.values == Fixture {
      FixtureOutcome(r);
    }
  }
}

=== FILE: insertion.dfy ===
/**
 The insertion sort page: `insertionSort` with its `sortedIndex` marker, and the start and
 reset buttons. For each `i` from 1, the key `arr[i]` is moved left past the elements that
 are strictly greater than it, with one pause per shift and one more for the placement.
 */
module Insertion {
  import opened Common

  /** How many elements of `s` are strictly greater than `x`. */
  function CountGreater(s: seq<int>, x: int): (r: nat)
    ensures r <= |s|
  {
    if s == [] then 0
    else CountGreater(s[..|s| - 1], x) + (if s[|s| - 1] > x then 1 else 0)
  }

  /** When the elements greater than `x` are exactly those from `p` on, there are `|s| - p` of them. */
  lemma {:induction false} CountGreaterSplit(s: seq<int>, x: int, p: int)
    requires 0 <= p <= |s|
    requires forall k :: 0 <= k < p ==> s[k] <= x
    requires forall k :: p <= k < |s| ==> s[k] > x
    ensures CountGreater(s, x) == |s| - p
    decreases |s|
  {
    if s != [] {
      var init := s[..|s| - 1];
      if p == |s| {
        CountGreaterSplit(init, x, p - 1);
      } else {
        CountGreaterSplit(init, x, p);
      }
    }
  }

  /** Inserting `key` at `pos` of a sorted sequence, after the elements at most `key` and before the greater ones, keeps it sorted. */
  lemma InsertKeepsSorted(s: seq<int>, key: int, pos: int)
    requires Sorted(s) && 0 <= pos <= |s|
    requires pos == 0 || s[pos - 1] <= key
    requires forall k :: pos <= k < |s| ==> s[k] > key
    ensures Sorted(s[..pos] + [key] + s[pos..])
  {
  }

  /** Writing the key into the hole left by the shifts gives the rotated layout. */
  lemma PlaceKey(arr: seq<int>, r: seq<int>, i: int, pos: int)
    requires 0 <= pos <= i < |arr| == |r|
    requires forall k :: 0 <= k < pos ==> r[k] == arr[k]
    requires forall k :: pos + 1 <= k <= i ==> r[k] == arr[k - 1]
    requires forall k :: i < k < |arr| ==> r[k] == arr[k]
    ensures r[pos := arr[i]] == arr[..pos] + [arr[i]] + arr[pos..i] + arr[i + 1..]
  {
  }

  /** The rotation that moves `s[i]` down to `pos` is a permutation. */
  lemma RotationPermutes(s: seq<int>, pos: int, i: int)
    requires 0 <= pos <= i < |s|
    ensures multiset(s[..pos] + [s[i]] + s[pos..i] + s[i + 1..]) == multiset(s)
  {
    assert s == s[..pos] + s[pos..i] + [s[i]] + s[i + 1..];
  }

  /** On a sorted prefix, the placement counts the greater elements and keeps the prefix sorted. */
  lemma PlacementOnSortedPrefix(arr: seq<int>, i: int, pos: int)
    requires 0 <= pos <= i < |arr|
    requires Sorted(arr[..i])
    requires pos == 0 || arr[pos - 1] <= arr[i]
    requires forall k :: pos <= k < i ==> arr[k] > arr[i]
    ensures i - pos == CountGreater(arr[..i], arr[i])
    ensures Sorted((arr[..pos] + [arr[i]] + arr[pos..i] + arr[i + 1..])[..i + 1])
  {
    var s, key := arr[..i], arr[i];
    forall k | 0 <= k < pos
      ensures s[k] <= key
    {
      assert s[k] <= s[pos - 1];
    }
    CountGreaterSplit(s, key, pos);
    InsertKeepsSorted(s, key, pos);
    assert (arr[..pos] + [arr[i]] + arr[pos..i] + arr[i + 1..])[..i + 1] == s[..pos] + [key] + s[pos..];
  }

  /** A pause of iteration `i`: one highlighted index in `[0, i]`, the marker at `i`. */
  predicate InsertPause(st: Step<int>, i: int, n: int) {
    && |st.highlighted| == 1
    && 0 <= st.highlighted[0] <= i
    && st.marker == At(i)
    && |st.shown| == n
  }

  /**
   The inner loop of iteration `i`: the elements before `i` that are greater than the key,
   from `i - 1` down to the first one that is not, each move up by one, with one pause per
   move highlighting the position it moved from.
   */
  method ShiftGreater(arr: seq<int>, i: int) returns (r: seq<int>, steps: seq<Step<int>>, pos: int)
    requires 1 <= i < |arr|
    ensures 0 <= pos <= i && |r| == |arr|
    ensures pos == 0 || arr[pos - 1] <= arr[i]
    ensures forall k :: pos <= k < i ==> arr[k] > arr[i]
    ensures forall k :: 0 <= k < pos ==> r[k] == arr[k]
    ensures forall k :: pos + 1 <= k <= i ==> r[k] == arr[k - 1]
    ensures forall k :: i < k < |arr| ==> r[k] == arr[k]
    ensures |steps| == i - pos
    ensures forall t :: 0 <= t < |steps| ==> InsertPause(steps[t], i, |arr|)
  {
    var key := arr[i];
    var j := i - 1;
    r, steps := arr, [];
    while j >= 0 && r[j] > key
      invariant -1 <= j <= i - 1
      invariant |r| == |arr|
      invariant forall k :: 0 <= k <= j + 1 ==> r[k] == arr[k]
      invariant forall k :: j + 2 <= k <= i ==> r[k] == arr[k - 1]
      invariant forall k :: i < k < |arr| ==> r[k] == arr[k]
      invariant forall k :: j + 1 <= k < i ==> arr[k] > key
      invariant |steps| == i - 1 - j
      invariant forall t :: 0 <= t < |steps| ==> InsertPause(steps[t], i, |arr|)
    {
      r := r[j + 1 := r[j]];
      j := j - 1;
      steps := steps + [Step(r, [j + 1], At(i))];
    }
    pos := j + 1;
  }

  /**
   One iteration `i` of the outer loop. The key `arr[i]` lands at `pos`, right after the
   last element that is at most the key (strict `>` stops the shifting, so equal elements
   stay in front of it); the elements from `pos` to `i - 1` move up by one. Each shift and
   the placement make one pause; on a sorted prefix the number of shifts is the number of
   prefix elements greater than the key, and the prefix grows sorted by one.
   */
  method InsertKey(arr: seq<int>, i: int) returns (r: seq<int>, steps: seq<Step<int>>, pos: int)
    requires 1 <= i < |arr|
    ensures 0 <= pos <= i
    ensures r == arr[..pos] + [arr[i]] + arr[pos..i] + arr[i + 1..]
    ensures pos == 0 || arr[pos - 1] <= arr[i]
    ensures forall k :: pos <= k < i ==> arr[k] > arr[i]
    ensures |steps| == i - pos + 1
    ensures forall t :: 0 <= t < |steps| ==> InsertPause(steps[t], i, |arr|)
    ensures steps[|steps| - 1] == Step(r, [pos], At(i))
    ensures Sorted(arr[..i]) ==> i - pos == CountGreater(arr[..i], arr[i]) && Sorted(r[..i + 1])
  {
    r, steps, pos := ShiftGreater(arr, i);
    PlaceKey(arr, r, i, pos);
    r := r[pos := arr[i]];
    steps := steps + [Step(r, [pos], At(i))];
    if Sorted(arr[..i]) {
      PlacementOnSortedPrefix(arr, i, pos);
    }
  }

  /**
   `insertionSort`: the result is a sorted permutation of the input; every pause highlights
   one index no greater than the marker, which is the current `i` in `[1, n)`.
   */
  method InsertionSort(a: seq<int>) returns (r: seq<int>, trace: seq<Step<int>>)
    ensures Sorted(r) && multiset(r) == multiset(a)
    ensures forall t :: 0 <= t < |trace| ==>
              && trace[t].marker.At? && 1 <= trace[t].marker.index < |a|
              && InsertPause(trace[t], trace[t].marker.index, |a|)
  {
    var n := |a|;
    r, trace := a, [];
    var i := 1;
    while i < n
      invariant 1 <= i && (i <= n || i == 1)
      invariant |r| == n && multiset(r) == multiset(a)
      invariant n > 0 ==> Sorted(r[..i])
      invariant forall t :: 0 <= t < |trace| ==>
                  && trace[t].marker.At? && 1 <= trace[t].marker.index < i
                  && InsertPause(trace[t], trace[t].marker.index, n)
    {
      var r', steps, pos := InsertKey(r, i);
      RotationPermutes(r, pos, i);
      r, trace := r', trace + steps;
      i := i + 1;
    }
    if n > 0 {
      assert r[..i] == r;
    } else {
      assert r == [];
    }
  }

  /**
   `handleSort` followed by the run it starts: ignored while a run is in progress;
   otherwise the page ends idle with a sorted permutation of its array, no highlight and
   the `sortedIndex` marker cleared. Every pause is one of an insertion round `i`.
   */
  method Launch(s: Session) returns (s': Session, trace: seq<Step<int>>)
    ensures s.sorting ==> s' == s && trace == []
    ensures !s.sorting ==> && Sorted(s'.values) && multiset(s'.values) == multiset(s.values)
                           && !s'.sorting && s'.highlighted == [] && s'.marker == Unmarked
    ensures !s.sorting ==> forall t :: 0 <= t < |trace| ==>
              && trace[t].marker.At? && 1 <= trace[t].marker.index < |s.values|
              && InsertPause(trace[t], trace[t].marker.index, |s.values|)
    ensures !s.sorting && s.values == Fixture ==> s'.values == SortedFixture
  {
    if s.sorting {
      return s, [];
    }
    var r;
    r, trace := InsertionSort(s.values);
    s' := s.(values := r, sorting := false, highlighted := [], marker := Unmarked);
    if s.values == Fixture {
      FixtureOutcome(r);
    }
  }
}

=== FILE: keyed.dfy ===
/**
 Sequences ordered by an integer key. Merge sort and counting sort are stated over
 elements of any type `T` compared through `key: T -> int`, so that their stability
 (equal keys keep their input order) can be expressed; the page itself sorts plain
 integers, which is the instance `T = int`, `key = Identity`.
 */
module Keyed {
  import opened Common

  /** Non-decreasing by key. */
  predicate SortedBy<T>(s: seq<T>, key: T -> int) {
    forall i, j :: 0 <= i < j < |s| ==> key(s[i]) <= key(s[j])
  }

  /** The elements of `s` whose key is `v`, in the order they appear in `s`. */
  function Filter<T>(s: seq<T>, v: int, key: T -> int): (r: seq<T>)
    ensures |r| <= |s|
    ensures forall k :: 0 <= k < |r| ==> key(r[k]) == v
  {
    if s == [] then []
    else Filter(s[..|s| - 1], v, key) + (if key(s[|s| - 1]) == v then [s[|s| - 1]] else [])
  }

  /** How many elements of `s` have a key smaller than `v`. */
  function Smaller<T>(s: seq<T>, v: int, key: T -> int): (r: nat)
    ensures r <= |s|
  {
    if s == [] then 0
    else Smaller(s[..|s| - 1], v, key) + (if key(s[|s| - 1]) < v then 1 else 0)
  }

  /** `out` holds the elements of each key in the order `orig` holds them. */
  ghost predicate SameOrderPerKey<T>(out: seq<T>, orig: seq<T>, key: T -> int) {
    forall v :: Filter(out, v, key) == Filter(orig, v, key)
  }

  /** Filtering distributes over concatenation. */
  lemma {:induction false} FilterAppend<T>(a: seq<T>, b: seq<T>, v: int, key: T -> int)
    ensures Filter(a + b, v, key) == Filter(a, v, key) + Filter(b, v, key)
    decreases |b|
  {
    if b != [] {
      var b' := b[..|b| - 1];
      assert (a + b)[..|a + b| - 1] == a + b';
      FilterAppend(a, b', v, key);
    } else {
      assert a + b == a;
    }
  }

  /** Filtering a sequence with a known head. */
  lemma FilterCons<T>(x: T, s: seq<T>, v: int, key: T -> int)
    ensures Filter([x] + s, v, key) == (if key(x) == v then [x] else []) + Filter(s, v, key)
  {
    FilterAppend([x], s, v, key);
    assert [x][..0] == [];
  }

  /** Filtering a prefix one element longer. */
  lemma FilterPrefix<T>(s: seq<T>, i: int, v: int, key: T -> int)
    requires 0 <= i < |s|
    ensures Filter(s[..i + 1], v, key) == Filter(s[..i], v, key) + (if key(s[i]) == v then [s[i]] else [])
  {
    assert s[..i + 1][..i] == s[..i];
  }

  /** The filter keeps exactly the copies of elements with key `v`. */
  lemma {:induction false} FilterMultiset<T>(s: seq<T>, v: int, key: T -> int)
    ensures forall x :: multiset(Filter(s, v, key))[x] == if key(x) == v then multiset(s)[x] else 0
    decreases |s|
  {
    if s != [] {
      var init, last := s[..|s| - 1], s[|s| - 1];
      assert s == init + [last];
      FilterMultiset(init, v, key);
    }
  }

  /** A sequence with no element of key `v` filters to nothing. */
  lemma {:induction false} FilterAbsent<T>(s: seq<T>, v: int, key: T -> int)
    requires forall k :: 0 <= k < |s| ==> key(s[k]) != v
    ensures Filter(s, v, key) == []
    decreases |s|
  {
    if s != [] {
      FilterAbsent(s[..|s| - 1], v, key);
    }
  }

  /** Raising the bound from `v` to `v + 1` adds exactly the elements of key `v`. */
  lemma {:induction false} SmallerStep<T>(s: seq<T>, v: int, key: T -> int)
    ensures Smaller(s, v + 1, key) == Smaller(s, v, key) + |Filter(s, v, key)|
    decreases |s|
  {
    if s != [] {
      SmallerStep(s[..|s| - 1], v, key);
    }
  }

  /** Raising the bound never lowers the count. */
  lemma {:induction false} SmallerMonotone<T>(s: seq<T>, v: int, w: int, key: T -> int)
    requires v <= w
    ensures Smaller(s, v, key) <= Smaller(s, w, key)
    decreases |s|
  {
    if s != [] {
      SmallerMonotone(s[..|s| - 1], v, w, key);
    }
  }

  /** Keeping the elements of every key in order keeps the multiset of elements. */
  lemma SameOrderMultiset<T>(out: seq<T>, orig: seq<T>, key: T -> int)
    requires SameOrderPerKey(out, orig, key)
    ensures multiset(out) == multiset(orig)
  {
    forall x
      ensures multiset(out)[x] == multiset(orig)[x]
    {
      FilterMultiset(out, key(x), key);
      FilterMultiset(orig, key(x), key);
      assert Filter(out, key(x), key) == Filter(orig, key(x), key);
    }
  }

  /** No element is smaller than a lower bound of all keys. */
  lemma {:induction false} SmallerThanMinimum<T>(s: seq<T>, lo: int, key: T -> int)
    requires forall k :: 0 <= k < |s| ==> lo <= key(s[k])
    ensures Smaller(s, lo, key) == 0
    decreases |s|
  {
    if s != [] {
      SmallerThanMinimum(s[..|s| - 1], lo, key);
    }
  }

  /** Every element is smaller than a strict upper bound of all keys. */
  lemma {:induction false} SmallerThanBound<T>(s: seq<T>, hi: int, key: T -> int)
    requires forall k :: 0 <= k < |s| ==> key(s[k]) < hi
    ensures Smaller(s, hi, key) == |s|
    decreases |s|
  {
    if s != [] {
      SmallerThanBound(s[..|s| - 1], hi, key);
    }
  }

  /** Under the identity key, key order is integer order. */
  lemma SortedByIdentity(s: seq<int>)
    ensures SortedBy(s, Identity) <==> Sorted(s)
  {
  }
}

=== FILE: merge.dfy ===
/**
 The merge sort page: `mergeSort`, `merge`, the `mergedIndex` marker, and the start and
 reset buttons. The recursion splits `[left, right]` at `floor((left + right) / 2)`; `merge`
 copies the two halves out and writes them back from `k = left`, one placement per pause.
 The algorithm is stated over any element type compared through an integer key, so that
 its stability can be expressed; the page is the instance `T = int`, `key = Identity`.
 */
module Merge {
  import opened Common
  import opened Keyed

  /** The reference merge: repeatedly take the smaller head, the left one on equal keys. */
  function Merged<T>(xs: seq<T>, ys: seq<T>, key: T -> int): (r: seq<T>)
    ensures |r| == |xs| + |ys|
    decreases |xs| + |ys|
  {
    if xs == [] then ys
    else if ys == [] then xs
    else if key(xs[0]) <= key(ys[0]) then [xs[0]] + Merged(xs[1..], ys, key)
    else [ys[0]] + Merged(xs, ys[1..], key)
  }

  /** The merge holds exactly the elements of both inputs. */
  lemma {:induction false} MergedMultiset<T>(xs: seq<T>, ys: seq<T>, key: T -> int)
    ensures multiset(Merged(xs, ys, key)) == multiset(xs) + multiset(ys)
    decreases |xs| + |ys|
  {
    if xs != [] && ys != [] {
      if key(xs[0]) <= key(ys[0]) {
        var rest := Merged(xs[1..], ys, key);
        MergedMultiset(xs[1..], ys, key);
        assert Merged(xs, ys, key) == [xs[0]] + rest;
        assert xs == [xs[0]] + xs[1..];
        assert multiset([xs[0]] + rest) == multiset{xs[0]} + multiset(rest);
        assert multiset(xs) == multiset{xs[0]} + multiset(xs[1..]);
      } else {
        var rest := Merged(xs, ys[1..], key);
        MergedMultiset(xs, ys[1..], key);
        assert Merged(xs, ys, key) == [ys[0]] + rest;
        assert ys == [ys[0]] + ys[1..];
        assert multiset([ys[0]] + rest) == multiset{ys[0]} + multiset(rest);
        assert multiset(ys) == multiset{ys[0]} + multiset(ys[1..]);
      }
    }
  }

  /** A lower bound of both inputs bounds the merge. */
  lemma MergedBound<T>(xs: seq<T>, ys: seq<T>, key: T -> int, b: int)
    requires forall k :: 0 <= k < |xs| ==> b <= key(xs[k])
    requires forall k :: 0 <= k < |ys| ==> b <= key(ys[k])
    ensures forall k :: 0 <= k < |Merged(xs, ys, key)| ==> b <= key(Merged(xs, ys, key)[k])
  {
  }

  /** A head no greater than a sorted tail makes a sorted sequence. */
  lemma ConsSorted<T>(x: T, s: seq<T>, key: T -> int)
    requires SortedBy(s, key)
    requires forall k :: 0 <= k < |s| ==> key(x) <= key(s[k])
    ensures SortedBy([x] + s, key)
  {
  }

  /** Merging two sorted sequences gives a sorted sequence. */
  lemma {:induction false} MergedSorted<T>(xs: seq<T>, ys: seq<T>, key: T -> int)
    requires SortedBy(xs, key) && SortedBy(ys, key)
    ensures SortedBy(Merged(xs, ys, key), key)
    decreases |xs| + |ys|
  {
    if xs != [] && ys != [] {
      if key(xs[0]) <= key(ys[0]) {
        MergedSorted(xs[1..], ys, key);
        MergedBound(xs[1..], ys, key, key(xs[0]));
        ConsSorted(xs[0], Merged(xs[1..], ys, key), key);
      } else {
        MergedSorted(xs, ys[1..], key);
        MergedBound(xs, ys[1..], key, key(ys[0]));
        ConsSorted(ys[0], Merged(xs, ys[1..], key), key);
      }
    }
  }

  /**
   Stability: when the left input is sorted, the elements of any one key come out of the
   merge in their input order, those of the left input first.
   */
  lemma {:induction false} MergedStable<T>(xs: seq<T>, ys: seq<T>, key: T -> int, v: int)
    requires SortedBy(xs, key)
    ensures Filter(Merged(xs, ys, key), v, key) == Filter(xs, v, key) + Filter(ys, v, key)
    decreases |xs| + |ys|
  {
    if xs == [] {
      assert Filter(xs, v, key) == [];
    } else if ys == [] {
      assert Filter(ys, v, key) == [];
    } else if key(xs[0]) <= key(ys[0]) {
      SortedTail(xs, key);
      MergedStable(xs[1..], ys, key, v);
      StableLeftCase(xs, ys, key, v);
    } else {
      MergedStable(xs, ys[1..], key, v);
      StableRightCase(xs, ys, key, v);
    }
  }

  /** The stability step when the merge takes the left head. */
  lemma StableLeftCase<T>(xs: seq<T>, ys: seq<T>, key: T -> int, v: int)
    requires xs != [] && ys != [] && key(xs[0]) <= key(ys[0])
    requires Filter(Merged(xs[1..], ys, key), v, key) == Filter(xs[1..], v, key) + Filter(ys, v, key)
    ensures Filter(Merged(xs, ys, key), v, key) == Filter(xs, v, key) + Filter(ys, v, key)
  {
    TakeLeft(xs, ys, key);
    StableLeft(xs[0], Merged(xs[1..], ys, key), xs[1..], ys, v, key);
    assert [xs[0]] + xs[1..] == xs;
  }

  /** The stability step when the merge takes the strictly smaller right head. */
  lemma StableRightCase<T>(xs: seq<T>, ys: seq<T>, key: T -> int, v: int)
    requires xs != [] && ys != [] && key(xs[0]) > key(ys[0]) && SortedBy(xs, key)
    requires Filter(Merged(xs, ys[1..], key), v, key) == Filter(xs, v, key) + Filter(ys[1..], v, key)
    ensures Filter(Merged(xs, ys, key), v, key) == Filter(xs, v, key) + Filter(ys, v, key)
  {
    TakeRight(xs, ys, key);
    if key(ys[0]) == v {
      LeftAbove(xs, key, v);
    }
    StableRight(ys[0], Merged(xs, ys[1..], key), xs, ys[1..], v, key);
    assert [ys[0]] + ys[1..] == ys;
  }

  /** Taking a left head keeps the per-key order of the left input in front. */
  lemma StableLeft<T>(x: T, m: seq<T>, a: seq<T>, b: seq<T>, v: int, key: T -> int)
    requires Filter(m, v, key) == Filter(a, v, key) + Filter(b, v, key)
    ensures Filter([x] + m, v, key) == Filter([x] + a, v, key) + Filter(b, v, key)
  {
    var h, fa, fb := if key(x) == v then [x] else [], Filter(a, v, key), Filter(b, v, key);
    FilterCons(x, m, v, key);
    FilterCons(x, a, v, key);
    ConcatAssociative(h, fa, fb);
  }

  /**
   Taking a right head keeps the per-key order, provided no left element shares its key
   (which sortedness of the left input guarantees when the right head is strictly smaller).
   */
  lemma StableRight<T>(y: T, m: seq<T>, a: seq<T>, b: seq<T>, v: int, key: T -> int)
    requires Filter(m, v, key) == Filter(a, v, key) + Filter(b, v, key)
    requires key(y) == v ==> Filter(a, v, key) == []
    ensures Filter([y] + m, v, key) == Filter(a, v, key) + Filter([y] + b, v, key)
  {
    var h, fa, fb := if key(y) == v then [y] else [], Filter(a, v, key), Filter(b, v, key);
    FilterCons(y, m, v, key);
    FilterCons(y, b, v, key);
    ConcatAssociative(h, fa, fb);
  }

  /** The tail of a sorted sequence is sorted. */
  lemma SortedTail<T>(xs: seq<T>, key: T -> int)
    requires xs != [] && SortedBy(xs, key)
    ensures SortedBy(xs[1..], key)
  {
  }

  /** A sorted sequence whose head is above `v` holds no element of key `v`. */
  lemma LeftAbove<T>(xs: seq<T>, key: T -> int, v: int)
    requires xs != [] && SortedBy(xs, key) && key(xs[0]) > v
    ensures Filter(xs, v, key) == []
  {
  }

  /** Taking the left head when it does not exceed the right head. */
  lemma TakeLeft<T>(xs: seq<T>, ys: seq<T>, key: T -> int)
    requires xs != [] && (ys == [] || key(xs[0]) <= key(ys[0]))
    ensures Merged(xs, ys, key) == [xs[0]] + Merged(xs[1..], ys, key)
  {
  }

  /** Taking the right head when it is strictly smaller or the left side is exhausted. */
  lemma TakeRight<T>(xs: seq<T>, ys: seq<T>, key: T -> int)
    requires ys != [] && (xs == [] || key(xs[0]) > key(ys[0]))
    ensures Merged(xs, ys, key) == [ys[0]] + Merged(xs, ys[1..], key)
  {
  }

  /** Writing `x` at `k` extends the written part `[left, k)` by `x` and touches nothing outside `[left, right]`. */
  lemma Place<T>(r: seq<T>, left: int, k: int, right: int, x: T)
    requires 0 <= left <= k <= right < |r|
    ensures r[k := x][left..k + 1] == r[left..k] + [x]
    ensures r[k := x][..left] == r[..left] && r[k := x][right + 1..] == r[right + 1..]
  {
  }

  /**
   The state of `merge` after `k - left` placements: `i` elements taken from the left
   half and `j` from the right, nothing outside `[left, right]` touched, and the written
   part `[left, k)` followed by the merge of what remains equal to the whole merge.
   */
  ghost predicate Writing<T>(r: seq<T>, arr: seq<T>, left: int, right: int, lefts: seq<T>, rights: seq<T>,
                             i: int, j: int, k: int, key: T -> int, whole: seq<T>) {
    && 0 <= i <= |lefts| && 0 <= j <= |rights| && 0 <= left && k == left + i + j && right < |arr|
    && |lefts| + |rights| == right - left + 1
    && |r| == |arr| && r[..left] == arr[..left] && r[right + 1..] == arr[right + 1..]
    && r[left..k] + Merged(lefts[i..], rights[j..], key) == whole
  }

  /** The pauses of one `merge` call so far: one per placement, the last showing the array. */
  ghost predicate MergePauses<T>(steps: seq<Step<T>>, r: seq<T>, left: int, mid: int, right: int, k: int, marker: Marker) {
    && |steps| == k - left
    && (forall t :: 0 <= t < |steps| ==> MergePause(steps[t], left, mid, right, |r|, marker))
    && (steps != [] ==> steps[|steps| - 1].shown == r)
  }

  /** The merge of the remainders from `i` and `j` starts with the left head, when it does not exceed the right head. */
  lemma TakeLeftAt<T>(lefts: seq<T>, rights: seq<T>, i: int, j: int, key: T -> int)
    requires 0 <= i < |lefts| && 0 <= j <= |rights|
    requires j == |rights| || key(lefts[i]) <= key(rights[j])
    ensures Merged(lefts[i..], rights[j..], key) == [lefts[i]] + Merged(lefts[i + 1..], rights[j..], key)
  {
  }

  /** The merge of the remainders from `i` and `j` starts with the right head, when it is strictly smaller or the left remainder is empty. */
  lemma TakeRightAt<T>(lefts: seq<T>, rights: seq<T>, i: int, j: int, key: T -> int)
    requires 0 <= i <= |lefts| && 0 <= j < |rights|
    requires i == |lefts| || key(lefts[i]) > key(rights[j])
    ensures Merged(lefts[i..], rights[j..], key) == [rights[j]] + Merged(lefts[i..], rights[j + 1..], key)
  {
  }

  /** Placing the head of the left remainder at `k`, when it does not exceed the right head, is one more step of the merge. */
  lemma EmitLeft<T>(r: seq<T>, arr: seq<T>, left: int, right: int, lefts: seq<T>, rights: seq<T>,
                    i: int, j: int, k: int, key: T -> int, whole: seq<T>)
    requires Writing(r, arr, left, right, lefts, rights, i, j, k, key, whole)
    requires i < |lefts| && (j == |rights| || key(lefts[i]) <= key(rights[j]))
    ensures Writing(r[k := lefts[i]], arr, left, right, lefts, rights, i + 1, j, k + 1, key, whole)
  {
  }

  /** Placing the head of the right remainder at `k`, when it is strictly smaller or the left remainder is empty, is one more step. */
  lemma EmitRight<T>(r: seq<T>, arr: seq<T>, left: int, right: int, lefts: seq<T>, rights: seq<T>,
                     i: int, j: int, k: int, key: T -> int, whole: seq<T>)
    requires Writing(r, arr, left, right, lefts, rights, i, j, k, key, whole)
    requires j < |rights| && (i == |lefts| || key(lefts[i]) > key(rights[j]))
    ensures Writing(r[k := rights[j]], arr, left, right, lefts, rights, i, j + 1, k + 1, key, whole)
  {
  }

  /** One more pause, showing the array just written. */
  lemma PauseAfter<T>(steps: seq<Step<T>>, r: seq<T>, r': seq<T>, left: int, mid: int, right: int, k: int,
                      highlighted: seq<int>, marker: Marker)
    requires MergePauses(steps, r, left, mid, right, k, marker) && |r'| == |r|
    requires MergePause(Step(r', highlighted, marker), left, mid, right, |r|, marker)
    ensures MergePauses(steps + [Step(r', highlighted, marker)], r', left, mid, right, k + 1, marker)
  {
  }

  /**
   A pause of `merge(arr, left, mid, right)`: while both halves remain, the pair
   `(left + i, mid + 1 + j)` of source positions, one in each half; afterwards the single
   source position of the element placed. The marker is whatever the page held before
   this merge.
   */
  predicate MergePause<T>(st: Step<T>, left: int, mid: int, right: int, n: int, marker: Marker) {
    && |st.shown| == n
    && st.marker == marker
    && ((|st.highlighted| == 2 && left <= st.highlighted[0] <= mid < st.highlighted[1] <= right)
        || (|st.highlighted| == 1 && left <= st.highlighted[0] <= right))
  }

  /**
   Pause `t` of the first loop of `merge`: the heads `(left + i, mid + 1 + j)` of both
   halves, after `i + j == t` placements.
   */
  predicate PairPause<T>(st: Step<T>, left: int, mid: int, t: int) {
    && |st.highlighted| == 2
    && (st.highlighted[0] - left) + (st.highlighted[1] - mid - 1) == t
  }

  /** The pair `p` highlights a position in each half: a left head and a right head. */
  predicate HeadPair<T>(p: seq<int>, left: int, mid: int, lefts: seq<T>, rights: seq<T>) {
    |p| == 2 && 0 <= p[0] - left < |lefts| && 0 <= p[1] - mid - 1 < |rights|
  }

  /**
   The heads after comparing the pair `p`: the side whose head is placed moves on by one,
   the left side when its key does not exceed the right one's.
   */
  function Advance<T>(p: seq<int>, left: int, mid: int, lefts: seq<T>, rights: seq<T>, key: T -> int): seq<int>
    requires HeadPair(p, left, mid, lefts, rights)
  {
    if key(lefts[p[0] - left]) <= key(rights[p[1] - mid - 1]) then [p[0] + 1, p[1]] else [p[0], p[1] + 1]
  }

  /**
   Pause `t` of the first loop of `merge` highlights the heads actually compared: the
   first heads `(left, mid + 1)` at the first pause, and afterwards the heads that the
   previous comparison moved on to.
   */
  ghost predicate HeadsPause<T>(steps: seq<Step<T>>, left: int, mid: int, lefts: seq<T>, rights: seq<T>,
                                key: T -> int, t: int)
    requires 0 <= t < |steps|
  {
    && HeadPair(steps[t].highlighted, left, mid, lefts, rights)
    && PairPause(steps[t], left, mid, t)
    && if t == 0 then steps[t].highlighted == [left, mid + 1]
       else && HeadPair(steps[t - 1].highlighted, left, mid, lefts, rights)
            && steps[t].highlighted == Advance(steps[t - 1].highlighted, left, mid, lefts, rights, key)
  }

  /** One more pause on the heads keeps the earlier ones as they were. */
  lemma HeadsExtend<T>(steps: seq<Step<T>>, st: Step<T>, left: int, mid: int, lefts: seq<T>, rights: seq<T>,
                       key: T -> int)
    requires forall t :: 0 <= t < |steps| ==> HeadsPause(steps, left, mid, lefts, rights, key, t)
    requires HeadsPause(steps + [st], left, mid, lefts, rights, key, |steps|)
    ensures forall t :: 0 <= t < |steps| + 1 ==> HeadsPause(steps + [st], left, mid, lefts, rights, key, t)
  {
    forall t | 0 <= t < |steps|
      ensures HeadsPause(steps + [st], left, mid, lefts, rights, key, t)
    {
      assert HeadsPause(steps, left, mid, lefts, rights, key, t);
      assert (steps + [st])[t] == steps[t];
      if t > 0 {
        assert (steps + [st])[t - 1] == steps[t - 1];
      }
    }
  }

  /** Pauses that chain along the heads keep doing so when later pauses follow them. */
  lemma {:induction false} HeadsPrefix<T>(pre: seq<Step<T>>, all: seq<Step<T>>, left: int, mid: int, lefts: seq<T>,
                                          rights: seq<T>, key: T -> int)
    requires forall t :: 0 <= t < |pre| ==> HeadsPause(pre, left, mid, lefts, rights, key, t)
    requires |pre| <= |all| && all[..|pre|] == pre
    ensures forall t :: 0 <= t < |pre| ==> HeadsPause(all, left, mid, lefts, rights, key, t)
  {
    forall t | 0 <= t < |pre|
      ensures HeadsPause(all, left, mid, lefts, rights, key, t)
    {
      assert HeadsPause(pre, left, mid, lefts, rights, key, t);
      assert all[t] == pre[t];
      if t > 0 {
        assert all[t - 1] == pre[t - 1];
      }
    }
  }

  /**
   The pauses of the first loop after `i` left and `j` right placements: each highlights
   the heads it compared, and the last comparison moved on to the heads `(left + i, mid + 1 + j)`.
   */
  ghost predicate HeadsSoFar<T>(steps: seq<Step<T>>, left: int, mid: int, lefts: seq<T>, rights: seq<T>,
                                key: T -> int, i: int, j: int)
  {
    && |steps| == i + j
    && (forall t :: 0 <= t < |steps| ==> HeadsPause(steps, left, mid, lefts, rights, key, t))
    && (steps != [] ==> && HeadPair(steps[|steps| - 1].highlighted, left, mid, lefts, rights)
                        && [left + i, mid + 1 + j]
                           == Advance(steps[|steps| - 1].highlighted, left, mid, lefts, rights, key))
  }

  /** A pause on the heads `(left + i, mid + 1 + j)` moves the side whose head is placed on by one. */
  lemma HeadsStep<T>(steps: seq<Step<T>>, st: Step<T>, left: int, mid: int, lefts: seq<T>, rights: seq<T>,
                     key: T -> int, i: int, j: int)
    requires HeadsSoFar(steps, left, mid, lefts, rights, key, i, j)
    requires 0 <= i < |lefts| && 0 <= j < |rights| && st.highlighted == [left + i, mid + 1 + j]
    ensures key(lefts[i]) <= key(rights[j]) ==> HeadsSoFar(steps + [st], left, mid, lefts, rights, key, i + 1, j)
    ensures key(lefts[i]) > key(rights[j]) ==> HeadsSoFar(steps + [st], left, mid, lefts, rights, key, i, j + 1)
  {
    assert HeadsPause(steps + [st], left, mid, lefts, rights, key, |steps|) by {
      if |steps| > 0 {
        assert (steps + [st])[|steps| - 1] == steps[|steps| - 1];
      }
    }
    HeadsExtend(steps, st, left, mid, lefts, rights, key);
  }

  /**
   One round of the first loop of `merge`: write the smaller head at `k`, the left one on
   ties, move that side on, and pause on the heads `(left + i, mid + 1 + j)` compared.
   */
  method PlaceHead<T>(arr: seq<T>, left: int, mid: int, right: int, lefts: seq<T>, rights: seq<T>,
                      key: T -> int, marker: Marker, ghost whole: seq<T>,
                      r0: seq<T>, steps0: seq<Step<T>>, i0: int, j0: int, k0: int)
    returns (r: seq<T>, steps: seq<Step<T>>, i: int, j: int, k: int)
    requires 0 <= left <= mid < right < |arr|
    requires |lefts| == mid - left + 1 && |rights| == right - mid
    requires i0 < |lefts| && j0 < |rights|
    requires Writing(r0, arr, left, right, lefts, rights, i0, j0, k0, key, whole)
    requires MergePauses(steps0, r0, left, mid, right, k0, marker)
    ensures Writing(r, arr, left, right, lefts, rights, i, j, k, key, whole)
    ensures MergePauses(steps, r, left, mid, right, k, marker)
    ensures steps == steps0 + [Step(r, [left + i0, mid + 1 + j0], marker)]
    ensures (i, j) == if key(lefts[i0]) <= key(rights[j0]) then (i0 + 1, j0) else (i0, j0 + 1)
  {
    var highlighted := [left + i0, mid + 1 + j0];
    if key(lefts[i0]) <= key(rights[j0]) {
      EmitLeft(r0, arr, left, right, lefts, rights, i0, j0, k0, key, whole);
      r, i, j := r0[k0 := lefts[i0]], i0 + 1, j0;
    } else {
      EmitRight(r0, arr, left, right, lefts, rights, i0, j0, k0, key, whole);
      r, i, j := r0[k0 := rights[j0]], i0, j0 + 1;
    }
    PauseAfter(steps0, r0, r, left, mid, right, k0, highlighted, marker);
    k, steps := k0 + 1, steps0 + [Step(r, highlighted, marker)];
  }

  /**
   The first loop of `merge`: while both halves remain, place the smaller head, the left
   one on ties. Every pause highlights the pair of heads compared.
   */
  method MergeHeads<T>(arr: seq<T>, left: int, mid: int, right: int, lefts: seq<T>, rights: seq<T>,
                       key: T -> int, marker: Marker, ghost whole: seq<T>)
    returns (r: seq<T>, steps: seq<Step<T>>, i: int, j: int, k: int)
    requires 0 <= left <= mid < right < |arr|
    requires |lefts| == mid - left + 1 && |rights| == right - mid
    requires Writing(arr, arr, left, right, lefts, rights, 0, 0, left, key, whole)
    ensures Writing(r, arr, left, right, lefts, rights, i, j, k, key, whole)
    ensures i == |lefts| || j == |rights|
    ensures MergePauses(steps, r, left, mid, right, k, marker)
    ensures forall t :: 0 <= t < |steps| ==> PairPause(steps[t], left, mid, t)
    ensures forall t :: 0 <= t < |steps| ==> HeadsPause(steps, left, mid, lefts, rights, key, t)
  {
    i, j, k := 0, 0, left;
    r, steps := arr, [];
    while i < |lefts| && j < |rights|
      invariant Writing(r, arr, left, right, lefts, rights, i, j, k, key, whole)
      invariant MergePauses(steps, r, left, mid, right, k, marker)
      invariant HeadsSoFar(steps, left, mid, lefts, rights, key, i, j)
      decreases |lefts| + |rights| - i - j
    {
      var steps0, i0, j0 := steps, i, j;
      r, steps, i, j, k := PlaceHead(arr, left, mid, right, lefts, rights, key, marker, whole, r, steps, i, j, k);
      HeadsStep(steps0, steps[|steps| - 1], left, mid, lefts, rights, key, i0, j0);
    }
    forall t | 0 <= t < |steps|
      ensures PairPause(steps[t], left, mid, t)
    {
      assert HeadsPause(steps, left, mid, lefts, rights, key, t);
    }
  }

  /**
   The second loop of `merge`: copy what remains of the left half. The pauses before it
   are kept, and each new one highlights the single left position being copied.
   */
  method CopyLefts<T>(arr: seq<T>, left: int, mid: int, right: int, lefts: seq<T>, rights: seq<T>,
                      key: T -> int, marker: Marker, ghost whole: seq<T>,
                      r0: seq<T>, steps0: seq<Step<T>>, i0: int, j: int, k0: int)
    returns (r: seq<T>, steps: seq<Step<T>>, i: int, k: int)
    requires 0 <= left <= mid < right < |arr|
    requires |lefts| == mid - left + 1 && |rights| == right - mid
    requires Writing(r0, arr, left, right, lefts, rights, i0, j, k0, key, whole)
    requires i0 == |lefts| || j == |rights|
    requires MergePauses(steps0, r0, left, mid, right, k0, marker)
    ensures Writing(r, arr, left, right, lefts, rights, i, j, k, key, whole)
    ensures i == |lefts|
    ensures MergePauses(steps, r, left, mid, right, k, marker)
    ensures |steps0| <= |steps| && forall t :: 0 <= t < |steps0| ==> steps[t] == steps0[t]
    ensures forall t :: |steps0| <= t < |steps| ==> steps[t].highlighted == [left + i0 + (t - |steps0|)]
  {
    r, steps, i, k := r0, steps0, i0, k0;
    while i < |lefts|
      invariant Writing(r, arr, left, right, lefts, rights, i, j, k, key, whole)
      invariant i == |lefts| || j == |rights|
      invariant MergePauses(steps, r, left, mid, right, k, marker)
      invariant |steps| - |steps0| == i - i0
      invariant forall t :: 0 <= t < |steps0| ==> steps[t] == steps0[t]
      invariant forall t :: |steps0| <= t < |steps| ==> steps[t].highlighted == [left + i0 + (t - |steps0|)]
    {
      var highlighted := [left + i];
      EmitLeft(r, arr, left, right, lefts, rights, i, j, k, key, whole);
      var r' := r[k := lefts[i]];
      PauseAfter(steps, r, r', left, mid, right, k, highlighted, marker);
      r, i, k := r', i + 1, k + 1;
      steps := steps + [Step(r, highlighted, marker)];
    }
  }

  /**
   The third loop of `merge`: copy what remains of the right half. The pauses before it
   are kept, and each new one highlights the single right position being copied.
   */
  method CopyRights<T>(arr: seq<T>, left: int, mid: int, right: int, lefts: seq<T>, rights: seq<T>,
                       key: T -> int, marker: Marker, ghost whole: seq<T>,
                       r0: seq<T>, steps0: seq<Step<T>>, j0: int, k0: int)
    returns (r: seq<T>, steps: seq<Step<T>>, j: int, k: int)
    requires 0 <= left <= mid < right < |arr|
    requires |lefts| == mid - left + 1 && |rights| == right - mid
    requires Writing(r0, arr, left, right, lefts, rights, |lefts|, j0, k0, key, whole)
    requires MergePauses(steps0, r0, left, mid, right, k0, marker)
    ensures Writing(r, arr, left, right, lefts, rights, |lefts|, |rights|, k, key, whole)
    ensures MergePauses(steps, r, left, mid, right, k, marker)
    ensures |steps0| <= |steps| && forall t :: 0 <= t < |steps0| ==> steps[t] == steps0[t]
    ensures forall t :: |steps0| <= t < |steps| ==> steps[t].highlighted == [mid + 1 + j0 + (t - |steps0|)]
  {
    r, steps, j, k := r0, steps0, j0, k0;
    while j < |rights|
      invariant Writing(r, arr, left, right, lefts, rights, |lefts|, j, k, key, whole)
      invariant MergePauses(steps, r, left, mid, right, k, marker)
      invariant |steps| - |steps0| == j - j0
      invariant forall t :: 0 <= t < |steps0| ==> steps[t] == steps0[t]
      invariant forall t :: |steps0| <= t < |steps| ==> steps[t].highlighted == [mid + 1 + j0 + (t - |steps0|)]
    {
      var highlighted := [mid + 1 + j];
      EmitRight(r, arr, left, right, lefts, rights, |lefts|, j, k, key, whole);
      var r' := r[k := rights[j]];
      PauseAfter(steps, r, r', left, mid, right, k, highlighted, marker);
      r, j, k := r', j + 1, k + 1;
      steps := steps + [Step(r, highlighted, marker)];
    }
  }

  /**
   `merge(arr, left, mid, right)`: positions `[left, right]` receive the merge of the two
   halves `arr[left..mid]` and `arr[mid+1..right]`, every other position keeps its value,
   and there is exactly one pause per placement, the last one showing the result. The
   pauses highlighting the pair of heads come first, those highlighting one copied
   position after them.
   */
  method MergeRange<T>(arr: seq<T>, left: int, mid: int, right: int, key: T -> int, marker: Marker)
    returns (r: seq<T>, steps: seq<Step<T>>)
    requires 0 <= left <= mid < right < |arr|
    ensures |r| == |arr| && r[..left] == arr[..left] && r[right + 1..] == arr[right + 1..]
    ensures r[left..right + 1] == Merged(arr[left..mid + 1], arr[mid + 1..right + 1], key)
    ensures |steps| == right - left + 1
    ensures forall t :: 0 <= t < |steps| ==> MergePause(steps[t], left, mid, right, |arr|, marker)
    ensures forall t :: 0 <= t < |steps| && |steps[t].highlighted| == 2 ==> PairPause(steps[t], left, mid, t)
    ensures forall t, u :: 0 <= t < u < |steps| && |steps[t].highlighted| == 1 ==> |steps[u].highlighted| == 1
    ensures forall t :: 0 <= t < |steps| && |steps[t].highlighted| == 2 ==>
      HeadsPause(steps, left, mid, arr[left..mid + 1], arr[mid + 1..right + 1], key, t)
    ensures r == LastShown(arr, steps)
  {
    var lefts, rights := arr[left..mid + 1], arr[mid + 1..right + 1];
    ghost var whole := Merged(lefts, rights, key);
    assert arr[left..left] == [];
    var i, j, k, heads, copied;
    r, heads, i, j, k := MergeHeads(arr, left, mid, right, lefts, rights, key, marker, whole);
    r, copied, i, k := CopyLefts(arr, left, mid, right, lefts, rights, key, marker, whole, r, heads, i, j, k);
    r, steps, j, k := CopyRights(arr, left, mid, right, lefts, rights, key, marker, whole, r, copied, j, k);
    forall t | 0 <= t < |steps|
      ensures t < |heads| ==> steps[t] == heads[t] && PairPause(steps[t], left, mid, t)
      ensures |heads| <= t ==> |steps[t].highlighted| == 1
    {
      if t < |copied| {
        assert steps[t] == copied[t];
      }
    }
    assert steps[..|heads|] == heads;
    HeadsPrefix(heads, steps, left, mid, lefts, rights, key);
    assert Merged(lefts[|lefts|..], rights[|rights|..], key) == [];
    assert r[left..k] == whole;
  }

  /**
   A pause of `mergeSort(arr, left, right)`: one or two highlighted positions inside
   `[left, right]`; the marker is the one held when this call began or the range of a
   merge completed inside `[left, right]`.
   */
  predicate SortPause<T>(st: Step<T>, left: int, right: int, n: int, marker: Marker) {
    && |st.shown| == n
    && 1 <= |st.highlighted| <= 2
    && (forall h :: 0 <= h < |st.highlighted| ==> left <= st.highlighted[h] <= right)
    && (st.marker == marker || (st.marker.Span? && left <= st.marker.lo < st.marker.hi <= right))
  }

  /** The pauses of both recursive calls and of the final merge are pauses of the enclosing call. */
  lemma PausesJoin<T>(s1: seq<Step<T>>, s2: seq<Step<T>>, s3: seq<Step<T>>, all: seq<Step<T>>, start: seq<T>, start3: seq<T>,
                      left: int, mid: int, right: int, n: int, marker: Marker, m1: Marker, m2: Marker)
    requires left <= mid < right
    requires m1 == marker || (m1.Span? && left <= m1.lo < m1.hi <= mid)
    requires m2 == m1 || (m2.Span? && mid + 1 <= m2.lo < m2.hi <= right)
    requires forall t :: 0 <= t < |s1| ==> SortPause(s1[t], left, mid, n, marker)
    requires forall t :: 0 <= t < |s2| ==> SortPause(s2[t], mid + 1, right, n, m1)
    requires forall t :: 0 <= t < |s3| ==> MergePause(s3[t], left, mid, right, n, m2)
    requires s3 != [] && all == s1 + s2 + s3
    ensures forall t :: 0 <= t < |all| ==> SortPause(all[t], left, right, n, marker)
    ensures LastShown(start, all) == LastShown(start3, s3)
  {
  }

  /**
   `r` is `arr` with the range `[left, right]` sorted: that range holds a permutation of
   what it held, ordered by key, with the elements of each key in their original order,
   and every position outside it is untouched.
   */
  ghost predicate SortsRange<T>(arr: seq<T>, r: seq<T>, left: int, right: int, key: T -> int)
    requires 0 <= left <= right + 1 <= |arr|
  {
    && |r| == |arr| && r[..left] == arr[..left] && r[right + 1..] == arr[right + 1..]
    && SortedBy(r[left..right + 1], key)
    && multiset(r[left..right + 1]) == multiset(arr[left..right + 1])
    && SameOrderPerKey(r[left..right + 1], arr[left..right + 1], key)
  }

  /** Sorting both halves and merging them sorts the whole range. */
  lemma SortStep<T>(arr: seq<T>, a1: seq<T>, a2: seq<T>, r: seq<T>, left: int, mid: int, right: int, key: T -> int)
    requires 0 <= left <= mid < right < |arr|
    requires SortsRange(arr, a1, left, mid, key) && SortsRange(a1, a2, mid + 1, right, key)
    requires |r| == |a2| && r[..left] == a2[..left] && r[right + 1..] == a2[right + 1..]
    requires r[left..right + 1] == Merged(a2[left..mid + 1], a2[mid + 1..right + 1], key)
    ensures SortsRange(arr, r, left, right, key)
  {
    FrameJoin(arr, a1, a2, r, left, mid, right);
    HalvesMerged(arr, a1, a2, r, left, mid, right, key);
  }

  /**
   The two sorted halves, merged, make the range sorted, a permutation of what it held,
   with the elements of each key in their original order.
   */
  lemma HalvesMerged<T>(arr: seq<T>, a1: seq<T>, a2: seq<T>, r: seq<T>, left: int, mid: int, right: int, key: T -> int)
    requires 0 <= left <= mid < right < |arr| == |a1| == |a2| == |r|
    requires a1[mid + 1..] == arr[mid + 1..]
    requires a2[..mid + 1] == a1[..mid + 1]
    requires SortedBy(a1[left..mid + 1], key) && SortedBy(a2[mid + 1..right + 1], key)
    requires multiset(a1[left..mid + 1]) == multiset(arr[left..mid + 1])
    requires multiset(a2[mid + 1..right + 1]) == multiset(a1[mid + 1..right + 1])
    requires SameOrderPerKey(a1[left..mid + 1], arr[left..mid + 1], key)
    requires SameOrderPerKey(a2[mid + 1..right + 1], a1[mid + 1..right + 1], key)
    requires r[left..right + 1] == Merged(a2[left..mid + 1], a2[mid + 1..right + 1], key)
    ensures SortedBy(r[left..right + 1], key)
    ensures multiset(r[left..right + 1]) == multiset(arr[left..right + 1])
    ensures SameOrderPerKey(r[left..right + 1], arr[left..right + 1], key)
  {
    var lows, highs := a2[left..mid + 1], a2[mid + 1..right + 1];
    assert lows == a1[left..mid + 1] by {
      assert a2[..mid + 1][left..] == a1[..mid + 1][left..];
    }
    assert a1[mid + 1..right + 1] == arr[mid + 1..right + 1] by {
      assert a1[mid + 1..][..right - mid] == arr[mid + 1..][..right - mid];
    }
    assert arr[left..right + 1] == arr[left..mid + 1] + arr[mid + 1..right + 1];
    MergedSorted(lows, highs, key);
    MergedMultiset(lows, highs, key);
    var merged, orig := r[left..right + 1], arr[left..right + 1];
    forall v
      ensures Filter(merged, v, key) == Filter(orig, v, key)
    {
      MergedStable(lows, highs, key, v);
      FilterAppend(arr[left..mid + 1], arr[mid + 1..right + 1], v, key);
    }
  }

  /** Three calls that each keep what lies outside their range keep what lies outside `[left, right]`. */
  lemma FrameJoin<T>(arr: seq<T>, a1: seq<T>, a2: seq<T>, r: seq<T>, left: int, mid: int, right: int)
    requires 0 <= left <= mid < right < |arr| == |a1| == |a2| == |r|
    requires a1[..left] == arr[..left] && a1[mid + 1..] == arr[mid + 1..]
    requires a2[..mid + 1] == a1[..mid + 1] && a2[right + 1..] == a1[right + 1..]
    requires r[..left] == a2[..left] && r[right + 1..] == a2[right + 1..]
    ensures r[..left] == arr[..left] && r[right + 1..] == arr[right + 1..]
  {
  }

  /**
   `mergeSort(arr, left, right)`: nothing happens unless `left < right`; otherwise the
   range `[left, right]` ends sorted, a permutation of what it held, stable, with every
   position outside it untouched, and the marker left on the range itself by the final
   merge. Every pause highlights positions inside the range.
   */
  method MergeSort<T>(arr: seq<T>, left: int, right: int, key: T -> int, marker: Marker)
    returns (r: seq<T>, steps: seq<Step<T>>, marker': Marker)
    requires 0 <= left <= right + 1 <= |arr|
    decreases right - left
    ensures SortsRange(arr, r, left, right, key)
    ensures marker' == if left < right then Span(left, right) else marker
    ensures left >= right ==> r == arr && steps == []
    ensures r == LastShown(arr, steps) && (left < right ==> steps != [])
    ensures forall t :: 0 <= t < |steps| ==> SortPause(steps[t], left, right, |arr|, marker)
  {
    if left < right {
      var mid := (left + right) / 2;
      var a1, s1, m1 := MergeSort(arr, left, mid, key, marker);
      var a2, s2, m2 := MergeSort(a1, mid + 1, right, key, m1);
      var s3;
      r, s3 := MergeRange(a2, left, mid, right, key, m2);
      steps := s1 + s2 + s3;
      PausesJoin(s1, s2, s3, steps, arr, a2, left, mid, right, |arr|, marker, m1, m2);
      SortStep(arr, a1, a2, r, left, mid, right, key);
      marker' := Span(left, right);
    } else {
      r, steps, marker' := arr, [], marker;
    }
  }

  /**
   `handleSort` followed by the run it starts: ignored while a run is in progress. The
   run sorts the page's own array; when it ends the page is still marked as sorting (the
   start button stays disabled until reset), the last highlight stays, and the marker
   holds the range of the last merge, the whole array.
   */
  method Launch(s: Session) returns (s': Session, trace: seq<Step<int>>)
    ensures s.sorting ==> s' == s && trace == []
    ensures !s.sorting ==> && s'.sorting && Sorted(s'.values) && multiset(s'.values) == multiset(s.values)
                           && s'.values == LastShown(s.values, trace)
    ensures !s.sorting && |s.values| >= 2 ==>
              && s'.marker == Span(0, |s.values| - 1)
              && trace != [] && s'.highlighted == LastHighlight(s.highlighted, trace)
    ensures !s.sorting && |s.values| < 2 ==> s' == s.(sorting := true) && trace == []
    ensures !s.sorting && s.values == Fixture ==> s'.values == SortedFixture
  {
    if s.sorting {
      return s, [];
    }
    var r, marker;
    r, trace, marker := SortWhole(s.values, s.marker);
    s' := s.(values := r, sorting := true, marker := marker, highlighted := LastHighlight(s.highlighted, trace));
    if s.values == Fixture {
      FixtureOutcome(r);
    }
  }

  /**
   The call `mergeSort(array, 0, array.length - 1)` that starting a run makes on the page's
   integers: the whole array ends sorted, and the marker is left on the whole array.
   */
  method SortWhole(a: seq<int>, marker: Marker) returns (r: seq<int>, trace: seq<Step<int>>, marker': Marker)
    ensures Sorted(r) && multiset(r) == multiset(a) && r == LastShown(a, trace)
    ensures marker' == if |a| >= 2 then Span(0, |a| - 1) else marker
    ensures |a| < 2 ==> r == a && trace == []
    ensures |a| >= 2 ==> trace != []
  {
    r, trace, marker' := MergeSort(a, 0, |a| - 1, Identity, marker);
    WholeRange(r, a);
  }

  /** Sorting the range `[0, n - 1]` by the identity key sorts the whole array. */
  lemma WholeRange(r: seq<int>, a: seq<int>)
    requires |r| == |a|
    requires SortedBy(r[0..|a|], Identity) && multiset(r[0..|a|]) == multiset(a[0..|a|])
    ensures Sorted(r) && multiset(r) == multiset(a)
  {
    assert r[0..|a|] == r && a[0..|a|] == a;
    SortedByIdentity(r);
  }
}

=== FILE: selection.dfy ===
/**
 The selection sort page: `selectionSort` with its `minIndex` marker, and the start and
 reset buttons. For each `i`, a scan over `j` in `(i, n)` keeps the index of the running
 minimum (replaced only on a strictly smaller value) and pauses once per comparison; an
 exchange, with one more pause, happens only when the minimum is not already at `i`.
 */
module Selection {
  import opened Common

  /**
   A pause during iteration `i`: the pair `(minIdx, j)` is highlighted with
   `i <= minIdx < j < n`, and the marker is an index in `[i, j]`.
   */
  predicate ComparePause(st: Step<int>, i: int, n: int) {
    && |st.highlighted| == 2
    && i <= st.highlighted[0] < st.highlighted[1] < n
    && st.marker.At?
    && i <= st.marker.index <= st.highlighted[1]
  }

  /**
   Pause `t` of the scan of iteration `i`, the one for `j = i + 1 + t`: the array is
   untouched; the pair `(minIdx, j)` is highlighted, where `minIdx` is `i` at the first
   pause and the marker of the previous pause afterwards; the marker moves to `j` only on
   a strictly smaller value, and so holds a minimum of `arr[i..j]` (inclusive).
   */
  predicate ScanPause(steps: seq<Step<int>>, arr: seq<int>, i: int, t: int)
    requires 0 <= t < |steps|
  {
    var st, j := steps[t], i + 1 + t;
    && 0 <= i
    && st.shown == arr
    && ComparePause(st, i, |arr|)
    && st.highlighted[1] == j
    && (if t == 0 then st.highlighted[0] == i else steps[t - 1].marker == At(st.highlighted[0]))
    && st.marker == (if arr[j] < arr[st.highlighted[0]] then At(j) else At(st.highlighted[0]))
    && (forall k :: i <= k <= j ==> arr[st.marker.index] <= arr[k])
  }

  /** One more pause of the scan keeps the earlier ones as they were. */
  lemma ScanExtend(steps: seq<Step<int>>, st: Step<int>, arr: seq<int>, i: int)
    requires forall t :: 0 <= t < |steps| ==> ScanPause(steps, arr, i, t)
    requires ScanPause(steps + [st], arr, i, |steps|)
    ensures forall t :: 0 <= t < |steps| + 1 ==> ScanPause(steps + [st], arr, i, t)
  {
    forall t | 0 <= t < |steps|
      ensures ScanPause(steps + [st], arr, i, t)
    {
      assert ScanPause(steps, arr, i, t);
      assert (steps + [st])[t] == steps[t];
      if t > 0 {
        assert (steps + [st])[t - 1] == steps[t - 1];
      }
    }
  }

  /**
   The inner scan of iteration `i`: `m` is the first position of the minimum of
   `arr[i..]`. It makes one pause per `j`, as `ScanPause` describes, and the last pause
   leaves the marker on `m`.
   */
  method ScanMin(arr: seq<int>, i: int) returns (m: int, steps: seq<Step<int>>)
    requires 0 <= i < |arr|
    ensures i <= m < |arr|
    ensures forall k :: i <= k < |arr| ==> arr[m] <= arr[k]
    ensures forall k :: i <= k < m ==> arr[k] > arr[m]
    ensures |steps| == |arr| - 1 - i
    ensures forall t :: 0 <= t < |steps| ==> ScanPause(steps, arr, i, t)
    ensures steps != [] ==> steps[|steps| - 1].marker == At(m)
  {
    m, steps := i, [];
    var j := i + 1;
    while j < |arr|
      invariant i + 1 <= j <= |arr|
      invariant i <= m < j
      invariant forall k :: i <= k < j ==> arr[m] <= arr[k]
      invariant forall k :: i <= k < m ==> arr[k] > arr[m]
      invariant |steps| == j - i - 1
      invariant forall t :: 0 <= t < |steps| ==> ScanPause(steps, arr, i, t)
      invariant steps != [] ==> steps[|steps| - 1].marker == At(m)
      invariant steps == [] ==> m == i
    {
      var highlighted := [m, j];
      if arr[j] < arr[m] {
        m := j;
      }
      var st := Step(arr, highlighted, At(m));
      assert ScanPause(steps + [st], arr, i, |steps|);
      ScanExtend(steps, st, arr, i);
      steps := steps + [st];
      j := j + 1;
    }
  }

  /**
   One iteration `i` of the outer loop: the first minimum of `arr[i..]` is exchanged into
   `i`, and only if it was elsewhere. The comparison pauses show the array as it was; the
   one extra pause for the exchange shows the exchanged array.
   */
  method SelectStep(arr: seq<int>, i: int) returns (r: seq<int>, steps: seq<Step<int>>, m: int)
    requires 0 <= i < |arr|
    ensures i <= m < |arr| && forall k :: i <= k < |arr| ==> arr[m] <= arr[k]
    ensures forall k :: i <= k < m ==> arr[k] > arr[m]
    ensures r == if m != i then Swap(arr, i, m) else arr
    ensures |steps| == |arr| - 1 - i + (if m != i then 1 else 0)
    ensures forall t :: 0 <= t < |steps| ==> ComparePause(steps[t], i, |arr|)
    ensures forall t :: 0 <= t < |arr| - 1 - i ==> steps[t].shown == arr
    ensures m != i ==> steps[|steps| - 1].shown == r && steps[|steps| - 1].marker == At(m)
  {
    var scan;
    m, scan := ScanMin(arr, i);
    forall t | 0 <= t < |scan|
      ensures ComparePause(scan[t], i, |arr|) && scan[t].shown == arr
    {
      assert ScanPause(scan, arr, i, t);
    }
    r, steps := arr, scan;
    if m != i {
      r := Swap(arr, i, m);
      steps := steps + [Step(r, scan[|scan| - 1].highlighted, At(m))];
    }
  }

  /** Moving the minimum of the unsorted part to its front grows the sorted prefix by one. */
  lemma SelectGrowsPrefix(r: seq<int>, r': seq<int>, i: int)
    requires 0 <= i < |r| == |r'|
    requires Sorted(r[..i]) && Below(r[..i], r[i..])
    requires r'[..i] == r[..i] && multiset(r'[i..]) == multiset(r[i..])
    requires forall k :: i <= k < |r| ==> r'[i] <= r[k]
    ensures Sorted(r'[..i + 1]) && Below(r'[..i + 1], r'[i + 1..])
  {
    PermutationKeepsAbove(r[..i], r'[i..], r[i..]);
    PermutationKeepsLowerBound(r'[i..], r[i..], r'[i]);
    forall p, q | 0 <= p < q <= i
      ensures r'[p] <= r'[q]
    {
      if q < i {
        assert r'[p] == r[..i][p] && r'[q] == r[..i][q];
      } else {
        assert r'[p] == r[..i][p] && r'[i] == r'[i..][0];
      }
    }
    forall p, q | 0 <= p <= i < q < |r'|
      ensures r'[p] <= r'[q]
    {
      assert r'[q] == r'[i..][q - i];
      if p < i {
        assert r'[p] == r[..i][p];
      } else {
        assert r'[i] == r'[i..][0];
      }
    }
  }

  /**
   `selectionSort`: the result is a sorted permutation of the input, and every pause
   highlights a pair of valid indices, the smaller first, beside a valid marker.
   */
  method SelectionSort(a: seq<int>) returns (r: seq<int>, trace: seq<Step<int>>)
    ensures Sorted(r) && multiset(r) == multiset(a)
    ensures forall t :: 0 <= t < |trace| ==> ComparePause(trace[t], 0, |a|)
  {
    var n := |a|;
    r, trace := a, [];
    var i := 0;
    while i < n
      invariant 0 <= i <= n
      invariant |r| == n && multiset(r) == multiset(a)
      invariant Sorted(r[..i]) && Below(r[..i], r[i..])
      invariant forall t :: 0 <= t < |trace| ==> ComparePause(trace[t], 0, n)
    {
      var r', steps, m := SelectStep(r, i);
      assert r'[..i] == r[..i];
      SuffixPermutation(r', r, i);
      SelectGrowsPrefix(r, r', i);
      r, trace := r', trace + steps;
      i := i + 1;
    }
    assert r[..i] == r;
  }

  /**
   `handleSort` followed by the run it starts: ignored while a run is in progress;
   otherwise the page ends idle with a sorted permutation of its array, no highlight and
   the `minIndex` marker cleared. Every pause is a comparison or exchange pause.
   */
  method Launch(s: Session) returns (s': Session, trace: seq<Step<int>>)
    ensures s.sorting ==> s' == s && trace == []
    ensures !s.sorting ==> && Sorted(s'.values) && multiset(s'.values) == multiset(s.values)
                           && !s'.sorting && s'.highlighted == [] && s'.marker == Unmarked
    ensures !s.sorting ==> forall t :: 0 <= t < |trace| ==> ComparePause(trace[t], 0, |s.values|)
    ensures !s.sorting && s.values == Fixture ==> s'.values == SortedFixture
  {
    if s.sorting {
      return s, [];
    }
    var r;
    r, trace := SelectionSort(s.values);
    s' := s.(values := r, sorting := false, highlighted := [], marker := Unmarked);
    if s.values == Fixture {
      FixtureOutcome(r);
    }
  }
}
